=== FILE: README.md ===
# magic: a reflection-driven struct and slice mapper, modelled in Dafny

`magic` copies data between Go values of different but related types. `Map(from, to, converters...)`
accepts a struct-to-struct or slice-to-slice pair, where the destination is normally a pointer. It walks
the two values with reflection and copies each source field into the destination field of the same name.
Each pair of values goes through the dispatcher `convert`, whose rules are tried in order:

1. identical types are copied;
2. a value is written into a pointer to its type, allocating the pointer if it is nil;
3. a pointer meets a value of its element type: a nil pointer writes nothing. A non-nil pointer is
   followed only when the destination is itself a pointer; otherwise reflection panics (magic.go:44);
4. a struct is copied into a struct, field by field;
5. a struct is copied into a pointer to a struct, allocating the pointer if it is nil;
6. a pointer to a struct is followed and copied into a struct;
7. a slice is copied into a slice by appending one converted element per source element;
8. the user converters are consulted in order;
9. otherwise the pair fails with "Cannot convert <kind> to <kind>".

Rule 1 applies before any nil check, so a nil source pointer copied into a destination of the same pointer
type overwrites the destination with nil (`Dispatch.SameTypeCopies`).

The model replaces reflection with a closed datatype of values (`Values.Value`): integers, strings,
nil and non-nil pointers, named structs and typed slices. `Values.TypeOf` recovers a value's type, as
`reflect.Value.Type()` does. Struct types are nominal (name plus field list), so for struct types, type
identity is datatype equality. Non-struct types are identified by their structure (see Left out).

Go writes the destination in place. The model returns `Outcome(dest, err)` instead: the destination as it
stands after the call, plus the error if there is one. On an error the destination keeps every write made
before the failure, exactly as the Go value does.

Three situations make reflection panic on paths magic.go leaves unguarded. The model reports each as the
error `Panic(reason)`:

- `Elem()` on a non-pointer destination;
- a method call on the invalid Value that comes from dereferencing nil;
- a nil pointer-to-struct source.

A user converter is a function `(from, to) -> Reply(handled, err, dest)`. `dest` is the destination
after the converter's own writes, and a converter that declines may still have written. Its error becomes
`Custom(msg)`.

Modules:

- `Values` (values.dfy): values, types, zero values and field lookup by name.
- `Magic` (magic.dfy): `isPtrOf`, `isPtrOfStruct`, `convert`, `convertSlice`, `convertStruct`, the
  converter loop and `Map`.
- `Dispatch` (dispatch.dfy): what each dispatcher rule does.
- `StructCopy` (struct_copy.dfy): `convertStruct` against an independent description of the copied fields.
- `SliceCopy` (slice_copy.dfy): `convertSlice` against an independent description of the appended elements.
- `Converters` (converters.dfy): the order of the converter chain, and its role as a fallback only.
- `Preservation` (preservation.dfy): conversions keep the destination's type, and "Cannot map" arises
  only at the top level.
- `MapEntry` (map_entry.dfy): the shape check of `Map`, identity, slice append, and the round trip.
- `Scenarios` (scenarios.dfy): worked examples, proved evaluations of the model on the data of magic_test.go.

## Model

| member | source | states |
|---|---|---|
| Values.Zero | magic.go:85 | the zero value of a type has exactly that type, and it is well typed when the type is one Go could declare |
| Values.FieldIndex | magic.go:101-107 | looking a field up by name returns the first field with that name, and reports absence exactly when no field has it |
| Magic.Message | magic.go:80 | the error text: "Cannot convert" errors and "Cannot map" errors (magic.go:136) carry their fixed prefixes, and a converter's error is passed on word for word. Full renderings are `Scenarios.InvalidTypeScenario` and `Scenarios.MapErrorMessage` |
| Magic.ShapesMatch | magic.go:125-134 | the pairs `Map` passes on: a slice source with a slice or pointer-to-slice destination, or a struct source with a struct or pointer-to-struct destination. That `Map` refuses every other pair is `MapEntry.MapShapeError` |
| Magic.IsPtrOf | magic.go:12-18 | true exactly when the first type is the pointer type whose element is the second |
| Magic.IsPtrOfStruct | magic.go:19-21 | true exactly when the type is a pointer to some struct type |
| Magic.Allocated | magic.go:33-35 | the pointee a value-to-pointer or struct-to-pointer conversion writes into has the pointer's element type. A nil pointer gets a fresh zero value; a non-nil one keeps its pointee (see `Dispatch.ValueToPointer`, `Dispatch.StructToPointerAllocates`) |
| Magic.Convert | magic.go:23-81 | a "custom" error comes back only when converters were given. The rules are stated one by one by the `Dispatch` lemmas: rule 1 by `SameTypeCopies`; rule 2 by `ValueToPointer`; rule 3 by `NilPointerToValue`, `PointerToPointee` and `PointerToValuePanics`; rule 4 by `StructToStruct`; rule 5 by `StructToPointerAllocates`; rule 6 by `PointerToStruct` and `NilPointerToStructPanics`; rule 7 by `SliceToSlice`; rules 8-9 by `FallsBack` for every pair rules 1-7 leave alone, with `NoRuleFallsBack` and `PointerToPointerUnbridged` as its two common cases. Type preservation is `Preservation.ConvertPreserves`, and that converters are a fallback only is `Converters.ConvertNeedsNoConverters` |
| Magic.ConvertSlice | magic.go:83-96 | the result is a slice of the destination's element type whose old elements stay an unchanged prefix. On success it grows by exactly the source length, on failure by less. Its contents are given by `SliceCopy.ConvertSliceSpec` |
| Magic.AppendItems | magic.go:84-93 | the loop from element i on: it keeps the prefix, and grows the slice by the number of remaining elements on success and by fewer on failure |
| Magic.ConvertStruct | magic.go:98-114 | the destination keeps its struct name, field count and field names, and a "custom" error needs converters. Which fields are written, and with what, is given by `StructCopy.ConvertStructSpec` and `StructCopy.StructFrame` |
| Magic.ConvertFields | magic.go:99-112 | the loop from source field i on keeps the destination's name, field count and field names |
| Magic.TryConverters | magic.go:70-78 | only a converter can decide, and a decided error is always the converter's own ("custom"). Order and threading are given by `Converters.TryConvertersAppend` and `Converters.FirstDecisiveConverter` |
| Magic.Map | magic.go:117-137 | the destination pointer itself is never allocated or cleared: the result is a non-nil pointer exactly when the destination was. The shape check is `MapEntry.MapShapeError`, and the round trip is `MapEntry.MapRoundTrip` |
| Dispatch.SameTypeCopies | magic.go:26-29 | when the types are identical, the destination becomes the source and no error is reported, whatever the converters |
| Dispatch.ValueToPointer | magic.go:32-37 | a value converted into a pointer to its type gives a non-nil pointer whose pointee equals the source, for both a nil and a non-nil destination |
| Dispatch.NilPointerToValue | magic.go:40-43 | a nil source pointer leaves a destination of its element type unchanged and reports no error |
| Dispatch.PointerToValuePanics | magic.go:40-45 | a non-nil source pointer meeting a plain (non-pointer) value of its element type panics, and the destination is left as it was |
| Dispatch.StructToPointerAllocates | magic.go:52-57 | a struct converted into a pointer to another struct type always leaves a non-nil pointer, even on error; the copy goes into a zero struct when the pointer was nil and into the old pointee otherwise |
| Dispatch.PointerToStruct | magic.go:59-64 | a non-nil pointer-to-struct source is copied into a struct destination exactly as its pointee would be |
| Dispatch.NilPointerToStructPanics | magic.go:59-64 | a nil pointer-to-struct source meeting a struct of another type panics, and the destination is left as it was |
| Dispatch.PointerToPointee | magic.go:40-45 | a non-nil pointer meeting a pointer destination of its element type: a non-nil destination is followed, and the source's pointee is converted into the destination's pointee; a nil destination panics |
| Dispatch.StructToStruct | magic.go:48-50 | two structs of different types are copied field by field by `convertStruct`, whatever the converters |
| Dispatch.SliceToSlice | magic.go:66-68 | two slices of different types are copied element by element by `convertSlice`, whatever the converters |
| Dispatch.PointerToPointerUnbridged | magic.go:23-81 | two pointers to different struct types match no structural rule, so the converter chain decides. When every converter declines, or there are none, the pair fails with "Cannot convert ptr to ptr" |
| Dispatch.FallsBack | magic.go:70-80 | every pair that rules 1-7 leave alone goes to the converter chain: two values of different types, neither a pointer to the other's type, not two structs or two slices, and no struct meeting a pointer to a struct. A deciding converter's outcome is the result. When every converter declines, or there are none, the pair fails with "Cannot convert" naming both kinds. This covers pairs such as `*int`/`string`, `int`/`*string`, `*int`/`*string` and `[]int`/`*[]string` |
| Dispatch.NoRuleFallsBack | magic.go:70-80 | two values of different kinds, neither a pointer, match no structural rule. The converter chain decides the result. When every converter declines, or there are none, the pair fails with "Cannot convert" naming both kinds |
| StructCopy.FieldsInvariant | magic.go:99-112 | after the first i source fields, the destination matches the independent description of the copy of those fields |
| StructCopy.ConvertStructSpec | magic.go:98-114 | the struct copy succeeds exactly when every source field with a namesake converts; then each namesake holds the conversion of its source field and no other field changes; otherwise the first failing field's error is returned and only the fields up to it are written |
| StructCopy.StructFrame | magic.go:98-114 | the copy keeps the destination's name and field names, and never writes a field whose name is absent from the source |
| StructCopy.StructIdentity | magic.go:98-114 | copying a struct into a struct of the same type makes the destination equal to the source |
| SliceCopy.ItemsInvariant | magic.go:84-93 | after the first i elements, the destination is its old contents followed by those elements converted into zero elements |
| SliceCopy.ConvertSliceSpec | magic.go:83-96 | the slice copy succeeds exactly when every element converts into a zero element; then the destination is its old contents followed by the converted elements in order; otherwise the first failing element's error is returned and only the elements before it are appended |
| SliceCopy.SameTypeSliceReplaced | magic.go:26-29 | identical slice types are handled by the copy rule, which replaces the destination, while the slice rule on the same pair would append the elements |
| Converters.TryConvertersAppend | magic.go:70-78 | a chain cs1 + cs2 behaves as cs1 unless every converter of cs1 declines, and then cs2 receives the destination as cs1 left it |
| Converters.FirstDecisiveConverter | magic.go:70-78 | the first converter that fails or handles the pair decides the result, and the converters after it are never consulted |
| Converters.ConvertNeedsNoConverters | magic.go:23-81 | a conversion that succeeds without converters gives the same result with any converters, so converters are consulted only where no structural rule applies |
| Preservation.TryConvertersPreserve | magic.go:70-78 | when the converters keep to the destination's type, the chain leaves a well-typed destination of the same type |
| Preservation.ConvertPreserves | magic.go:23-81 | with such converters, every conversion keeps the destination's type and leaves it well typed, on success and on error |
| Preservation.FieldsPreserve | magic.go:98-114 | the struct copy keeps the destination struct's type and well-typedness |
| Preservation.ItemsPreserve | magic.go:83-96 | the slice copy keeps the destination slice's type, and each appended element has the element type |
| Preservation.ConvertNoShapeError | magic.go:23-81 | no conversion below the entry point reports a "Cannot map" error |
| MapEntry.MapShapeError | magic.go:125-136 | the entry point fails with "Cannot map" exactly when the source and the dereferenced destination are not both slices or both structs; the error names the original types and the destination is untouched |
| MapEntry.MapRejectsPointerSource | magic.go:121-136 | a pointer source is never dereferenced and is always refused with "Cannot map" |
| MapEntry.MapNilDestination | magic.go:125-133 | a nil pointer destination is never written, and the call succeeds only when the source has no elements or fields |
| MapEntry.MapPreserves | magic.go:117-137 | with type-respecting converters, the entry point keeps the destination's type and well-typedness |
| MapEntry.MapIdentity | magic.go:132-133 | mapping a struct onto a pointer to a struct of the same type makes the pointee equal to the source |
| MapEntry.MapSliceAppends | magic.go:129-130 | mapping a slice onto a pointer to a slice of the same type appends the source elements after the old ones |
| MapEntry.CopyIntoSubset | magic.go:98-114 | when every destination field has a same-typed namesake in the source, the copy succeeds and each destination field takes its namesake's value |
| MapEntry.CopyBack | magic.go:98-114 | a struct that holds some of a's fields copies back onto a without changing it |
| MapEntry.MapRoundTrip | magic.go:117-137 | mapping a onto b, where b's fields are among a's with the same types, and then mapping the result back onto a, gives back exactly a |
| Scenarios.MapStructScenario | magic_test.go:75-82 | testType1{34, "John", "111", ["1"]} onto a zero testType2 copies ID, Name and Tags, skips Password, and keeps the zero Created |
| Scenarios.TypeToPtrScenario | magic_test.go:224-235 | an int field into a nil *int field allocates the pointer, which then holds the int |
| Scenarios.InvalidTypeScenario | magic_test.go:159-172 | an int field meeting a string field fails with "Cannot convert int to string", without the field prefix the test expects |
| Scenarios.MapErrorScenario | magic_test.go:268-272 | a struct onto a pointer to a []string is refused with a "Cannot map" error naming both types |
| Scenarios.MapErrorMessage | magic.go:136 | that error reads "Cannot map magic.S1 to *[]string" |
| Scenarios.PtrToTypeScenario | magic_test.go:189-212 | a non-nil *int field meeting an int field panics, where the test expects a copy |
| Scenarios.NilPtrToTypeScenario | magic_test.go:214-218 | a nil *int field leaves the int destination field as it was |
| Scenarios.StringsToPointersScenario | magic_test.go:111-120 | a []string field into an empty []*string field appends a pointer to a copy of each string |
| Scenarios.PtrToPtrScenario | magic_test.go:390-420 | a *G1 field meeting a nil *G2 field fails with "Cannot convert ptr to ptr", where the test expects the pointee copied |
| Scenarios.TimeToUnix | magic_test.go:62-73 | the tests' converter never fails, handles exactly a time value meeting an integer destination (`int64` read as the model's `Int`), keeps the destination's type, and leaves the destination alone when it declines |
| Scenarios.ConverterScenario | magic_test.go:500-508 | the time field reaches the timeToUnix converter only after every structural rule declined, and the int it produces is stored |
| Scenarios.FailingConverterScenario | magic_test.go:510-514 | a failing converter's error is returned unchanged, after the ID field has been copied |
| Scenarios.NoConverterScenario | magic.go:70-80 | without converters the time field fails with "Cannot convert struct to int", after the ID field has been copied. The field is `int64` in magic_test.go:59, so Go names the kind "int64". The model has a single integer kind, `Int`, which it names "int" |

## Where the code and its tests disagree

The model follows magic.go. magic_test.go was written against a later interface: there `Map` returns two
values and takes options. Several of its expectations are not what magic.go does:

- magic_test.go:84-88 maps `&t1` onto `&t2`. magic.go does not dereference a pointer source, and refuses
  the call with "Cannot map" (`MapEntry.MapRejectsPointerSource`).
- magic_test.go:159-187 expects a "S1.ID: " field-path prefix and a lower-case "cannot". magic.go returns
  "Cannot convert int to string" without a prefix (`Scenarios.InvalidTypeScenario`).
- magic_test.go:189-212 expects a non-nil `*int` to be copied into an `int`. magic.go calls `Elem()` on the
  `int` destination at magic.go:44, which panics (`Dispatch.PointerToValuePanics`). The `Foo` half of the
  same test agrees with magic.go: a non-nil `*Foo1` meets a `Foo2` under the pointer-to-struct rule
  (magic.go:59-63), which follows the pointer and copies `Bar` without error (`Dispatch.PointerToStruct`).
- magic_test.go:214-221 expects a nil `*Foo1` source to be accepted. magic.go panics instead
  (`Dispatch.NilPointerToStructPanics`). Where the source cannot be set, as for a field of a struct passed
  by value, the panic comes from the `Set` call at magic.go:61. Where it can be set, as for a slice
  element, magic.go:61 sets it to another nil pointer. At magic.go:63, `Elem()` of that pointer returns the
  invalid Value without panicking. The panic comes at the first `from.Type()` inside `convertStruct`
  (magic.go:99).
- magic_test.go:390-420 expects `*G1` to be copied into `*G2`. magic.go has no pointer-to-pointer rule
  (`Dispatch.PointerToPointerUnbridged`).
- magic_test.go:265 expects "[]string is not addressable" for a non-pointer destination. magic.go has no
  such check (see `Map` under Left out).

## Left out

- Map: requires a pointer destination whenever the top-level shapes match. With a non-pointer destination,
  magic.go hands an unaddressable value to the copier. Reflection panics at the first `Set` on that value
  itself: an allocation at magic.go:34 or :54, the same-type write at :27 reached for one of its fields, or the append at :92. Writes through
  pointers the value already holds succeed, because a pointee is addressable. Whether a call panics
  therefore depends on the data, and the model does not track addressability.
- Defined (named) non-struct types are identified with their underlying type. In Go they are distinct, so
  rule 1 does not apply between them. For example, a `type MyInt int` field meeting an `int` field goes to
  the converters and, with none, fails with "Cannot convert int to int". A `type Tags []string` field meeting
  a `[]string` field goes to rule 7 and is appended to, not replaced.
- Pointer aliasing: Go writes through a non-nil destination pointer into memory that other pointers may
  share. The model has no heap, so the pointee is replaced inside the returned destination only.
- Go's integer widths, floats, maps, interfaces, arrays and channels are not modelled. The only scalars are
  unbounded `int` and `string`. The time.Time of the tests is a one-field struct standing for its seconds.
- Unexported and embedded fields: every field is treated as exported and named.
- Cyclic or shared data: values are finite trees.
- options.go (`WithConverters`, `WithMapping`, the unconverted-fields log) is not part of this model.
  Converters are passed as a list, as magic.go takes them.
- The convertible-scalar rule, map-to-map copying and the field-path prefixes on errors exist only in the
  later version the tests were written for, not in magic.go.
- A user converter that writes a value of another type into the destination: reflection would panic, and
  the model's type-preservation results assume converters that keep the destination's type (`Sound`).
- The text of a reflection panic is not modelled. `Panic(reason)` records only which unguarded path was
  taken.

=== FILE: converters.dfy ===
/**
  The user converters: the order in which they are consulted, and the fact
  that they are an escape hatch only, consulted when no structural rule applies.
 */
module Converters {
  import opened Values
  import opened Magic

  /**
    Converters are consulted in list order: a chain `cs1 + cs2` behaves as
    `cs1`, unless every converter of `cs1` declines, in which case `cs2` is
    offered the destination as `cs1` left it.
   */
  lemma {:induction false} TryConvertersAppend(cs1: seq<Converter>, cs2: seq<Converter>, from: Value, to: Value)
    ensures TryConverters(cs1 + cs2, from, to) ==
      match TryConverters(cs1, from, to)
      case Declined(d) => TryConverters(cs2, from, d)
      case Decided(o) => Decided(o)
    decreases |cs1|
  {
    if |cs1| > 0 {
      assert (cs1 + cs2)[0] == cs1[0];
      assert (cs1 + cs2)[1..] == cs1[1..] + cs2;
      var r := cs1[0](from, to);
      if r.err.None? && !r.handled {
        TryConvertersAppend(cs1[1..], cs2, from, r.dest);
      }
    } else {
      assert cs1 + cs2 == cs2;
    }
  }

  /**
    The first converter that fails or handles the pair decides; the ones after
    it are never consulted.
   */
  lemma FirstDecisiveConverter(c: Converter, rest: seq<Converter>, from: Value, to: Value)
    requires c(from, to).err.Some? || c(from, to).handled
    ensures TryConverters([c] + rest, from, to) ==
      if c(from, to).err.Some? then Decided(Outcome(c(from, to).dest, Some(Custom(c(from, to).err.value))))
      else Decided(Outcome(c(from, to).dest, None))
  {
  }

  /**
    Converters never change a conversion that succeeds without them: every
    pair the structural rules can bridge is bridged by them alone.
   */
  lemma {:induction false} ConvertNeedsNoConverters(from: Value, to: Value, cs: seq<Converter>)
    requires Convert(from, to, []).err.None?
    ensures Convert(from, to, cs) == Convert(from, to, [])
    decreases from, 1, TypeSize(TypeOf(to)), 0
  {
    var ft, tt := TypeOf(from), TypeOf(to);
    if ft == tt {
    } else if IsPtrOf(tt, ft) {
      ConvertNeedsNoConverters(from, Allocated(to), cs);
    } else if IsPtrOf(ft, tt) {
      if !from.NilV? && to.PtrV? {
        ConvertNeedsNoConverters(from.pointee, to.pointee, cs);
      }
    } else if ft.StructT? && tt.StructT? {
      FieldsNeedNoConverters(from, to, 0, cs);
    } else if ft.StructT? && IsPtrOfStruct(tt) {
      FieldsNeedNoConverters(from, Allocated(to), 0, cs);
    } else if tt.StructT? && IsPtrOfStruct(ft) {
      if !from.NilV? {
        FieldsNeedNoConverters(from.pointee, to, 0, cs);
      }
    } else if ft.SliceT? && tt.SliceT? {
      ItemsNeedNoConverters(from, to, 0, cs);
    }
  }

  lemma {:induction false} FieldsNeedNoConverters(from: Value, to: Value, i: nat, cs: seq<Converter>)
    requires from.StructV? && to.StructV? && i <= |from.fields|
    requires ConvertFields(from, to, i, []).err.None?
    ensures ConvertFields(from, to, i, cs) == ConvertFields(from, to, i, [])
    decreases from, 0, 0, |from.fields| - i
  {
    if i < |from.fields| {
      var f := from.fields[i];
      match FieldIndex(to.fields, f.name)
      case None =>
        FieldsNeedNoConverters(from, to, i + 1, cs);
      case Some(j) =>
        var o := Convert(f.val, to.fields[j].val, []);
        ConvertNeedsNoConverters(f.val, to.fields[j].val, cs);
        var to' := to.(fields := to.fields[j := to.fields[j].(val := o.dest)]);
        FieldsNeedNoConverters(from, to', i + 1, cs);
    }
  }

  lemma {:induction false} ItemsNeedNoConverters(from: Value, to: Value, i: nat, cs: seq<Converter>)
    requires from.SliceV? && to.SliceV? && i <= |from.items|
    requires AppendItems(from, to, i, []).err.None?
    ensures AppendItems(from, to, i, cs) == AppendItems(from, to, i, [])
    decreases from, 0, 0, |from.items| - i
  {
    if i < |from.items| {
      var o := Convert(from.items[i], Zero(to.elemType), []);
      ConvertNeedsNoConverters(from.items[i], Zero(to.elemType), cs);
      ItemsNeedNoConverters(from, to.(items := to.items + [o.dest]), i + 1, cs);
    }
  }
}

=== FILE: dispatch.dfy ===
/**
  Facts about the individual rules of the dispatcher `Convert`: which rule
  fires for a given pair of types, and what it does to the destination.
 */
module Dispatch {
  import opened Values
  import opened Magic

  /** Rule 1 wins over every other rule: a same-typed destination becomes the source. */
  lemma SameTypeCopies(from: Value, to: Value, cs: seq<Converter>)
    requires TypeOf(from) == TypeOf(to)
    ensures Convert(from, to, cs) == Outcome(from, None)
  {
  }

  /**
    Value to pointer: whether the destination pointer was nil (and is
    allocated) or not (and keeps its pointee), the pointee is converted from a
    value of its own type, so it ends up equal to the source.
   */
  lemma ValueToPointer(from: Value, to: Value, cs: seq<Converter>)
    requires TypeOf(to) == PtrT(TypeOf(from))
    ensures Convert(from, to, cs) == Outcome(PtrV(from), None)
  {
    assert TypeSize(TypeOf(to)) == 1 + TypeSize(TypeOf(from));
    var p := Allocated(to);
    assert TypeOf(p) == TypeOf(from);
    SameTypeCopies(from, p, cs);
  }

  /** Pointer to value: a nil source pointer writes nothing and reports no error. */
  lemma NilPointerToValue(to: Value, cs: seq<Converter>)
    ensures Convert(NilV(TypeOf(to)), to, cs) == Outcome(to, None)
  {
    var t := TypeOf(to);
    assert TypeSize(PtrT(t)) == 1 + TypeSize(t);
    assert TypeSize(PtrT(PtrT(t))) == 2 + TypeSize(t);
  }

  /**
    Pointer to value with a non-nil source: magic.go calls `Elem()` on the
    destination, which reflection refuses unless the destination is itself a
    pointer. A plain value destination therefore never receives the pointee.
   */
  lemma PointerToValuePanics(p: Value, to: Value, cs: seq<Converter>)
    requires TypeOf(p) == TypeOf(to) && !TypeOf(to).PtrT?
    ensures Convert(PtrV(p), to, cs) == Outcome(to, Some(Panic(ElemOfNonPointer)))
  {
  }

  /**
    Struct to pointer-to-another-struct: the destination pointer is non-nil
    afterwards, even when the field copy fails; a nil pointer is first set to
    a zero struct, a non-nil one keeps its pointee as the copy's target.
   */
  lemma StructToPointerAllocates(from: Value, to: Value, cs: seq<Converter>)
    requires from.StructV? && TypeOf(to).PtrT? && TypeOf(to).elem.StructT?
    requires TypeOf(to).elem != TypeOf(from)
    ensures Convert(from, to, cs).dest.PtrV?
    ensures to.NilV? ==>
      var o := ConvertStruct(from, Zero(to.target), cs);
      Convert(from, to, cs) == Outcome(PtrV(o.dest), o.err)
    ensures to.PtrV? ==>
      var o := ConvertStruct(from, to.pointee, cs);
      Convert(from, to, cs) == Outcome(PtrV(o.dest), o.err)
  {
  }

  /** Pointer-to-struct to another struct: a non-nil source is followed to its struct. */
  lemma PointerToStruct(p: Value, to: Value, cs: seq<Converter>)
    requires p.StructV? && to.StructV? && TypeOf(p) != TypeOf(to)
    ensures Convert(PtrV(p), to, cs) == ConvertStruct(p, to, cs)
  {
  }

  /**
    A nil pointer-to-struct source with a struct destination of another type:
    `Elem()` of the nil pointer is the invalid Value, and `convertStruct` asks
    it for its type (magic.go:99), which panics; no conversion takes place.
   */
  lemma NilPointerToStructPanics(s: Type, to: Value, cs: seq<Converter>)
    requires s.StructT? && to.StructV? && s != TypeOf(to)
    ensures Convert(NilV(s), to, cs) == Outcome(to, Some(Panic(NilStructSource)))
  {
  }

  /**
    Pointer to pointee where the pointee is itself a pointer: a non-nil
    destination pointer is followed and the source's pointee converted into
    its pointee; a nil one is dereferenced to the invalid Value, which panics.
   */
  lemma PointerToPointee(p: Value, to: Value, cs: seq<Converter>)
    requires TypeOf(p) == TypeOf(to) && TypeOf(to).PtrT?
    ensures to.PtrV? ==>
      var o := Convert(p, to.pointee, cs);
      Convert(PtrV(p), to, cs) == Outcome(PtrV(o.dest), o.err)
    ensures to.NilV? ==> Convert(PtrV(p), to, cs) == Outcome(to, Some(Panic(ZeroValue)))
  {
    assert TypeSize(TypeOf(PtrV(p))) == 1 + TypeSize(TypeOf(to));
  }

  /** Two structs of different types: the field-by-field copy of `convertStruct`. */
  lemma StructToStruct(from: Value, to: Value, cs: seq<Converter>)
    requires from.StructV? && to.StructV? && TypeOf(from) != TypeOf(to)
    ensures Convert(from, to, cs) == ConvertStruct(from, to, cs)
  {
  }

  /** Two slices of different types: the element-by-element append of `convertSlice`. */
  lemma SliceToSlice(from: Value, to: Value, cs: seq<Converter>)
    requires from.SliceV? && to.SliceV? && TypeOf(from) != TypeOf(to)
    ensures Convert(from, to, cs) == ConvertSlice(from, to, cs)
  {
  }

  /**
    magic.go has no pointer-to-pointer rule: two pointers to different struct
    types are bridged only by a converter, and without one the pair fails.
   */
  lemma PointerToPointerUnbridged(from: Value, to: Value, cs: seq<Converter>)
    requires TypeOf(from).PtrT? && TypeOf(from).elem.StructT?
    requires TypeOf(to).PtrT? && TypeOf(to).elem.StructT?
    requires TypeOf(from) != TypeOf(to)
    ensures Convert(from, to, cs) ==
      match TryConverters(cs, from, to)
      case Decided(o) => o
      case Declined(d) => Outcome(d, Some(CannotConvert(Ptr, Ptr)))
    ensures Convert(from, to, []) == Outcome(to, Some(CannotConvert(Ptr, Ptr)))
  {
  }

  /**
    Two values of different kinds, neither of them a pointer, meet no
    structural rule: the converter chain decides, and when every converter
    declines the pair fails with both kinds named.
   */
  lemma NoRuleFallsBack(from: Value, to: Value, cs: seq<Converter>)
    requires KindOf(TypeOf(from)) != KindOf(TypeOf(to)) && !TypeOf(from).PtrT? && !TypeOf(to).PtrT?
    ensures Convert(from, to, cs) ==
      match TryConverters(cs, from, to)
      case Decided(o) => o
      case Declined(d) => Outcome(d, Some(CannotConvert(KindOf(TypeOf(from)), KindOf(TypeOf(to)))))
    ensures Convert(from, to, []) == Outcome(to, Some(CannotConvert(KindOf(TypeOf(from)), KindOf(TypeOf(to)))))
  {
  }

  /**
    Rules 8 and 9 in full: any pair that rules 1-7 leave alone (different
    types, no pointer of the other's type on either side, not two structs or
    two slices, no struct meeting a pointer to a struct) goes to the converter
    chain, and a declined chain fails with both kinds named. This covers
    `*int` meeting `string`, `int` meeting `*string`, `*int` meeting
    `*string` and `[]int` meeting `*[]string` alike.
   */
  lemma FallsBack(from: Value, to: Value, cs: seq<Converter>)
    requires TypeOf(from) != TypeOf(to)
    requires TypeOf(to) != PtrT(TypeOf(from)) && TypeOf(from) != PtrT(TypeOf(to))
    requires !(from.StructV? && to.StructV?) && !(from.SliceV? && to.SliceV?)
    requires !(from.StructV? && TypeOf(to).PtrT? && TypeOf(to).elem.StructT?)
    requires !(to.StructV? && TypeOf(from).PtrT? && TypeOf(from).elem.StructT?)
    ensures Convert(from, to, cs) ==
      match TryConverters(cs, from, to)
      case Decided(o) => o
      case Declined(d) => Outcome(d, Some(CannotConvert(KindOf(TypeOf(from)), KindOf(TypeOf(to)))))
    ensures Convert(from, to, []) == Outcome(to, Some(CannotConvert(KindOf(TypeOf(from)), KindOf(TypeOf(to)))))
  {
  }
}

=== FILE: magic.dfy ===
/**
  The recursive structural copier of magic.go.

  Go writes the destination in place through reflection. Here each operation
  returns an `Outcome`: the destination as it stands afterwards, together with
  the error, if any. On an error the destination still holds every write made
  before the failure, just as the Go value does.
 */
module Magic {
  import opened Values

  /** Why reflection would panic on a path that magic.go does not guard. */
  datatype PanicReason =
    | ElemOfNonPointer   // `Elem()` called on a value that is not a pointer
    | ZeroValue          // a method called on the invalid Value obtained by dereferencing nil
    | NilStructSource    // a nil pointer-to-struct source: re-set to nil (or not settable at all); its Elem() is the invalid Value, whose Type() panics

  datatype Error =
    | CannotConvert(fromKind: Kind, toKind: Kind)  // "Cannot convert <kind> to <kind>"
    | CannotMap(fromType: Type, toType: Type)       // "Cannot map %T to %T"
    | Custom(msg: string)                           // an error built by a user converter
    | Panic(reason: PanicReason)

  /** What a user converter reports: handled, its error message if it failed, and the destination after its writes. */
  datatype Reply = Reply(handled: bool, err: Option<string>, dest: Value)

  type Converter = (Value, Value) -> Reply

  datatype Outcome = Outcome(dest: Value, err: Option<Error>)

  /** The converter chain either declines (every converter declined) or decides. */
  datatype Attempt = Declined(dest: Value) | Decided(outcome: Outcome)

  /**
    The text of an error: the two errors magic.go builds itself carry their
    fixed prefixes, and a converter's error is passed on word for word.
   */
  function Message(e: Error): (m: string)
    ensures e.CannotConvert? ==> |m| > 15 && m[..15] == "Cannot convert "
    ensures e.CannotMap? ==> |m| > 11 && m[..11] == "Cannot map "
    ensures e.Custom? ==> m == e.msg
  {
    match e
    case CannotConvert(a, b) => "Cannot convert " + KindName(a) + " to " + KindName(b)
    case CannotMap(a, b) => "Cannot map " + TypeName(a) + " to " + TypeName(b)
    case Custom(m) => m
    case Panic(_) => "panic"
  }

  /** `isPtrOf`: t1 is a pointer type whose element type is t2. */
  function IsPtrOf(t1: Type, t2: Type): (b: bool)
    ensures b <==> t1 == PtrT(t2)
  {
    t1.PtrT? && t1.elem == t2
  }

  /** `isPtrOfStruct`: t is a pointer to some struct type. */
  function IsPtrOfStruct(t: Type): (b: bool)
    ensures b <==> exists n, fs :: t == PtrT(StructT(n, fs))
  {
    if t.PtrT? && t.elem.StructT? then
      assert t == PtrT(StructT(t.elem.name, t.elem.fieldTypes));
      true
    else
      false
  }

  /** The pointee of a pointer value, allocated as a zero value when the pointer is nil. */
  function Allocated(p: Value): (r: Value)
    requires p.NilV? || p.PtrV?
    ensures TypeOf(p) == PtrT(TypeOf(r))
  {
    if p.NilV? then Zero(p.target) else p.pointee
  }

  /**
    `convert`: the first rule that matches decides.
      1. identical types: copy
      2. value to pointer: allocate if nil, convert into the pointee
      3. pointer to value: a nil source is a no-op
      4. struct to struct
      5. struct to pointer-to-struct: allocate if nil
      6. pointer-to-struct to struct
      7. slice to slice: append
      8. user converters, in order
      9. "Cannot convert"
   */
  function Convert(from: Value, to: Value, cs: seq<Converter>): (r: Outcome)
    ensures r.err.Some? && r.err.value.Custom? ==> |cs| > 0
    decreases from, 1, TypeSize(TypeOf(to)), 0
  {
    var ft := TypeOf(from);
    var tt := TypeOf(to);
    if ft == tt then
      Outcome(from, None)
    else if IsPtrOf(tt, ft) then
      var o := Convert(from, Allocated(to), cs);
      Outcome(PtrV(o.dest), o.err)
    else if IsPtrOf(ft, tt) then
      if from.NilV? then
        Outcome(to, None)
      else if to.PtrV? then
        // `to.Elem()` succeeds only because the destination is itself a pointer
        var o := Convert(from.pointee, to.pointee, cs);
        Outcome(PtrV(o.dest), o.err)
      else if to.NilV? then
        Outcome(to, Some(Panic(ZeroValue)))
      else
        Outcome(to, Some(Panic(ElemOfNonPointer)))
    else if ft.StructT? && tt.StructT? then
      ConvertStruct(from, to, cs)
    else if ft.StructT? && IsPtrOfStruct(tt) then
      var o := ConvertStruct(from, Allocated(to), cs);
      Outcome(PtrV(o.dest), o.err)
    else if tt.StructT? && IsPtrOfStruct(ft) then
      if from.NilV? then
        Outcome(to, Some(Panic(NilStructSource)))
      else
        ConvertStruct(from.pointee, to, cs)
    else if ft.SliceT? && tt.SliceT? then
      ConvertSlice(from, to, cs)
    else
      match TryConverters(cs, from, to)
      case Decided(o) => o
      case Declined(d) => Outcome(d, Some(CannotConvert(KindOf(ft), KindOf(tt))))
  }

  /**
    `convertSlice`: append one converted zero element per source element. The
    old elements stay an unchanged prefix; the slice grows by the source
    length on success and by less on failure.
   */
  function ConvertSlice(from: Value, to: Value, cs: seq<Converter>): (r: Outcome)
    requires from.SliceV? && to.SliceV?
    ensures r.dest.SliceV? && r.dest.elemType == to.elemType
    ensures |to.items| <= |r.dest.items| && r.dest.items[..|to.items|] == to.items
    ensures r.err.None? ==> |r.dest.items| == |to.items| + |from.items|
    ensures r.err.Some? ==> |r.dest.items| < |to.items| + |from.items|
    ensures r.err.Some? && r.err.value.Custom? ==> |cs| > 0
    decreases from, 0, 1, 0
  {
    AppendItems(from, to, 0, cs)
  }

  /** The loop of `convertSlice` from element i on. */
  function AppendItems(from: Value, to: Value, i: nat, cs: seq<Converter>): (r: Outcome)
    requires from.SliceV? && to.SliceV? && i <= |from.items|
    ensures r.dest.SliceV? && r.dest.elemType == to.elemType
    ensures |to.items| <= |r.dest.items| && r.dest.items[..|to.items|] == to.items
    ensures r.err.None? ==> |r.dest.items| == |to.items| + |from.items| - i
    ensures r.err.Some? ==> |r.dest.items| < |to.items| + |from.items| - i
    ensures r.err.Some? && r.err.value.Custom? ==> |cs| > 0
    decreases from, 0, 0, |from.items| - i
  {
    if i == |from.items| then
      Outcome(to, None)
    else
      var o := Convert(from.items[i], Zero(to.elemType), cs);
      if o.err.Some? then
        Outcome(to, o.err)
      else
        AppendItems(from, to.(items := to.items + [o.dest]), i + 1, cs)
  }

  /**
    `convertStruct`: copy source fields, in declaration order, into same-named
    destination fields. The destination keeps its name and its field names.
   */
  function ConvertStruct(from: Value, to: Value, cs: seq<Converter>): (r: Outcome)
    requires from.StructV? && to.StructV?
    ensures r.dest.StructV? && r.dest.name == to.name && |r.dest.fields| == |to.fields|
    ensures forall k :: 0 <= k < |to.fields| ==> r.dest.fields[k].name == to.fields[k].name
    ensures r.err.Some? && r.err.value.Custom? ==> |cs| > 0
    decreases from, 0, 1, 0
  {
    ConvertFields(from, to, 0, cs)
  }

  /** The loop of `convertStruct` from source field i on. */
  function ConvertFields(from: Value, to: Value, i: nat, cs: seq<Converter>): (r: Outcome)
    requires from.StructV? && to.StructV? && i <= |from.fields|
    ensures r.dest.StructV? && r.dest.name == to.name && |r.dest.fields| == |to.fields|
    ensures forall k :: 0 <= k < |to.fields| ==> r.dest.fields[k].name == to.fields[k].name
    ensures r.err.Some? && r.err.value.Custom? ==> |cs| > 0
    decreases from, 0, 0, |from.fields| - i
  {
    if i == |from.fields| then
      Outcome(to, None)
    else
      var f := from.fields[i];
      match FieldIndex(to.fields, f.name)
      case None =>
        ConvertFields(from, to, i + 1, cs)
      case Some(j) =>
        var o := Convert(f.val, to.fields[j].val, cs);
        var to' := to.(fields := to.fields[j := to.fields[j].(val := o.dest)]);
        if o.err.Some? then Outcome(to', o.err) else ConvertFields(from, to', i + 1, cs)
  }

  /**
    The fallback loop: each converter sees the destination as the previous one
    left it. Only a converter decides, and its error is reported as its own.
   */
  function TryConverters(cs: seq<Converter>, from: Value, to: Value): (r: Attempt)
    ensures r.Decided? ==> |cs| > 0
    ensures r.Decided? && r.outcome.err.Some? ==> r.outcome.err.value.Custom?
    decreases |cs|
  {
    if |cs| == 0 then
      Declined(to)
    else
      var r := cs[0](from, to);
      if r.err.Some? then Decided(Outcome(r.dest, Some(Custom(r.err.value))))
      else if r.handled then Decided(Outcome(r.dest, None))
      else TryConverters(cs[1..], from, r.dest)
  }

  /** The top-level shapes `Map` accepts, after it dereferences a pointer destination. */
  predicate ShapesMatch(from: Type, to: Type): (b: bool)
    ensures b <==>
      || (from.SliceT? && (to.SliceT? || (to.PtrT? && to.elem.SliceT?)))
      || (from.StructT? && (to.StructT? || (to.PtrT? && to.elem.StructT?)))
  {
    var d := if to.PtrT? then to.elem else to;
    (from.SliceT? && d.SliceT?) || (from.StructT? && d.StructT?)
  }

  /**
    `Map`: the entry point. The destination is dereferenced once if it is a
    pointer; only slice/slice and struct/struct reach a converter. The
    destination pointer itself is never allocated or cleared.
   */
  function Map(from: Value, to: Value, cs: seq<Converter>): (r: Outcome)
    requires ShapesMatch(TypeOf(from), TypeOf(to)) ==> TypeOf(to).PtrT?
    ensures r.dest.PtrV? <==> to.PtrV?
    ensures r.err.Some? && r.err.value.Custom? ==> |cs| > 0
  {
    var ft := TypeOf(from);
    var tt := TypeOf(to);
    if !ShapesMatch(ft, tt) then
      Outcome(to, Some(CannotMap(ft, tt)))
    else if to.NilV? then
      // the dereferenced destination is the invalid Value: the first access panics
      if (from.SliceV? && |from.items| == 0) || (from.StructV? && |from.fields| == 0) then
        Outcome(to, None)
      else
        Outcome(to, Some(Panic(ZeroValue)))
    else
      // the shapes match, so the destination is a pointer, and not nil
      var o := if ft.SliceT? then ConvertSlice(from, to.pointee, cs) else ConvertStruct(from, to.pointee, cs);
      Outcome(PtrV(o.dest), o.err)
  }
}

=== FILE: map_entry.dfy ===
/**
  Properties of the entry point `Map`: the shape check, identity, the
  round trip through a struct with a subset of the fields, and type safety.
 */
module MapEntry {
  import opened Values
  import opened Magic
  import opened StructCopy
  import opened SliceCopy
  import opened Preservation
  import Dispatch

  /**
    `Map` fails with "Cannot map" exactly when the top-level shapes are not
    slice/slice or struct/struct once a pointer destination is dereferenced;
    the error names the original argument types (the pointer type included)
    and the destination is left as it was.
   */
  lemma MapShapeError(from: Value, to: Value, cs: seq<Converter>)
    requires ShapesMatch(TypeOf(from), TypeOf(to)) ==> TypeOf(to).PtrT?
    ensures IsShapeError(Map(from, to, cs).err) <==> !ShapesMatch(TypeOf(from), TypeOf(to))
    ensures !ShapesMatch(TypeOf(from), TypeOf(to)) ==>
      Map(from, to, cs) == Outcome(to, Some(CannotMap(TypeOf(from), TypeOf(to))))
  {
    if ShapesMatch(TypeOf(from), TypeOf(to)) && to.PtrV? {
      if from.SliceV? {
        ItemsNoShapeError(from, to.pointee, 0, cs);
      } else {
        FieldsNoShapeError(from, to.pointee, 0, cs);
      }
    }
  }

  /** A pointer source is refused at the top level, whatever the destination. */
  lemma MapRejectsPointerSource(from: Value, to: Value, cs: seq<Converter>)
    requires from.PtrV? || from.NilV?
    ensures Map(from, to, cs) == Outcome(to, Some(CannotMap(TypeOf(from), TypeOf(to))))
  {
  }

  /**
    A nil pointer destination is dereferenced to reflection's invalid value:
    the call succeeds only when there is nothing to copy.
   */
  lemma MapNilDestination(from: Value, t: Type, cs: seq<Converter>)
    requires ShapesMatch(TypeOf(from), PtrT(t))
    ensures Map(from, NilV(t), cs).dest == NilV(t)
    ensures Map(from, NilV(t), cs).err.None? <==>
      (from.SliceV? && |from.items| == 0) || (from.StructV? && |from.fields| == 0)
  {
  }

  /** With type-respecting converters, `Map` keeps the destination's type and well-typedness. */
  lemma MapPreserves(from: Value, to: Value, cs: seq<Converter>)
    requires ShapesMatch(TypeOf(from), TypeOf(to)) ==> TypeOf(to).PtrT?
    requires WellTyped(from) && WellTyped(to) && Sound(cs)
    ensures WellTyped(Map(from, to, cs).dest) && TypeOf(Map(from, to, cs).dest) == TypeOf(to)
  {
    if ShapesMatch(TypeOf(from), TypeOf(to)) && to.PtrV? {
      if from.SliceV? {
        ItemsPreserve(from, to.pointee, 0, cs);
      } else {
        FieldsPreserve(from, to.pointee, 0, cs);
      }
    }
  }

  /** Identity: mapping a struct onto a struct of the same type makes the destination equal to the source. */
  lemma MapIdentity(s: Value, t: Value, cs: seq<Converter>)
    requires s.StructV? && TypeOf(s) == TypeOf(t) && WellTyped(s)
    ensures Map(s, PtrV(t), cs) == Outcome(PtrV(s), None)
  {
    StructIdentity(s, t, cs);
  }

  /** Mapping a slice onto a pointer to a slice of the same type appends copies of its elements. */
  lemma MapSliceAppends(src: Value, dst: Value, cs: seq<Converter>)
    requires src.SliceV? && TypeOf(src) == TypeOf(dst) && WellTyped(src)
    ensures Map(src, PtrV(dst), cs) == Outcome(PtrV(dst.(items := dst.items + src.items)), None)
  {
    SameTypeSliceReplaced(src, dst, cs);
  }

  /** Every field of b has a namesake in a, of the same type. */
  ghost predicate Embeds(a: Value, b: Value)
    requires a.StructV? && b.StructV?
  {
    forall j :: 0 <= j < |b.fields| ==>
      var i := FieldIndex(a.fields, b.fields[j].name);
      i.Some? && TypeOf(a.fields[i.value].val) == TypeOf(b.fields[j].val)
  }

  /** Copying a into b, when b's fields are among a's with the same types, takes each of them from a. */
  lemma CopyIntoSubset(a: Value, b: Value, cs: seq<Converter>)
    requires a.StructV? && b.StructV? && WellTyped(a) && WellTyped(b) && Embeds(a, b)
    ensures
      var r := ConvertStruct(a, b, cs);
      && r.err.None?
      && r.dest.StructV? && r.dest.name == b.name && |r.dest.fields| == |b.fields|
      && forall j :: 0 <= j < |b.fields| ==>
           r.dest.fields[j] == b.fields[j].(val := a.fields[FieldIndex(a.fields, b.fields[j].name).value].val)
  {
    var af, bf := a.fields, b.fields;
    forall m | 0 <= m < |af| ensures FieldOk(af, bf, m, cs) {
      match FieldIndex(bf, af[m].name)
      case None =>
      case Some(j) =>
        FieldIndexOfOwnName(af, m);
        Dispatch.SameTypeCopies(af[m].val, bf[j].val, cs);
    }
    ConvertStructSpec(a, b, cs);
    forall j | 0 <= j < |bf|
      ensures Written(af, bf, cs)[j] == bf[j].(val := af[FieldIndex(af, bf[j].name).value].val)
    {
      var i := FieldIndex(af, bf[j].name).value;
      Dispatch.SameTypeCopies(af[i].val, bf[j].val, cs);
    }
  }

  /**
    Copying back: a struct c holding, in b's field order, the fields of a
    that b names, copies back onto a without changing it.
   */
  lemma CopyBack(a: Value, b: Value, c: Value, cs: seq<Converter>)
    requires a.StructV? && b.StructV? && c.StructV? && WellTyped(a) && WellTyped(b) && Embeds(a, b)
    requires |c.fields| == |b.fields|
    requires forall j :: 0 <= j < |b.fields| ==>
      c.fields[j] == b.fields[j].(val := a.fields[FieldIndex(a.fields, b.fields[j].name).value].val)
    ensures ConvertStruct(c, a, cs) == Outcome(a, None)
  {
    var af, bf, cf := a.fields, b.fields, c.fields;
    assert forall j :: 0 <= j < |bf| ==> cf[j].name == bf[j].name;
    assert DistinctFields(cf) by {
      forall x, y | 0 <= x < y < |cf| ensures cf[x].name != cf[y].name {
        assert bf[x].name != bf[y].name;
      }
    }
    forall m | 0 <= m < |cf| ensures FieldOk(cf, af, m, cs) {
      FieldIndexByNames(cf, bf, cf[m].name);
      var i := FieldIndex(af, bf[m].name).value;
      Dispatch.SameTypeCopies(cf[m].val, af[i].val, cs);
    }
    ConvertStructSpec(c, a, cs);
    forall i | 0 <= i < |af| ensures Written(cf, af, cs)[i] == af[i] {
      match FieldIndex(cf, af[i].name)
      case None =>
      case Some(m) =>
        FieldIndexByNames(cf, bf, cf[m].name);
        FieldIndexOfOwnName(af, i);
        Dispatch.SameTypeCopies(cf[m].val, af[i].val, cs);
    }
    assert Written(cf, af, cs) == af;
  }

  /**
    Round trip: mapping a onto b, where every field of b also occurs in a with
    the same type, and then mapping the result back onto a, gives back a
    exactly: the shared fields travel both ways unchanged and the others are
    never touched.
   */
  lemma MapRoundTrip(a: Value, b: Value, cs: seq<Converter>)
    requires a.StructV? && b.StructV? && WellTyped(a) && WellTyped(b) && Embeds(a, b)
    ensures Map(a, PtrV(b), cs).err.None?
    ensures Map(a, PtrV(b), cs).dest.PtrV?
    ensures Map(Map(a, PtrV(b), cs).dest.pointee, PtrV(a), cs) == Outcome(PtrV(a), None)
  {
    CopyIntoSubset(a, b, cs);
    CopyBack(a, b, ConvertStruct(a, b, cs).dest, cs);
  }
}

=== FILE: preservation.dfy ===
/**
  Type safety of the copier: a conversion never changes the type of the
  destination, and never builds a value reflection could not hold, as long as
  the user converters themselves keep to the destination's type (reflection
  refuses any other write). The "Cannot map" shape error is raised only by
  `Map` itself, never below it.
 */
module Preservation {
  import opened Values
  import opened Magic

  /** Each converter leaves a well-typed destination well-typed and of its type. */
  ghost predicate Sound(cs: seq<Converter>) {
    forall k, a, b :: 0 <= k < |cs| && WellTyped(b) ==>
      WellTyped(cs[k](a, b).dest) && TypeOf(cs[k](a, b).dest) == TypeOf(b)
  }

  /** Replacing a field's value with one of the same type keeps the struct's type and well-typedness. */
  lemma UpdateFieldKeepsType(to: Value, j: nat, d: Value)
    requires to.StructV? && j < |to.fields| && WellTyped(to)
    requires TypeOf(d) == TypeOf(to.fields[j].val) && WellTyped(d)
    ensures
      var to' := to.(fields := to.fields[j := to.fields[j].(val := d)]);
      TypeOf(to') == TypeOf(to) && WellTyped(to')
  {
    var to' := to.(fields := to.fields[j := to.fields[j].(val := d)]);
    assert TypeOf(to').fieldTypes == TypeOf(to).fieldTypes;
    assert DistinctFields(to'.fields) by {
      forall a, b | 0 <= a < b < |to'.fields| ensures to'.fields[a].name != to'.fields[b].name {
        assert to'.fields[a].name == to.fields[a].name;
        assert to'.fields[b].name == to.fields[b].name;
      }
    }
  }

  lemma {:induction false} TryConvertersPreserve(cs: seq<Converter>, from: Value, to: Value)
    requires WellTyped(to) && Sound(cs)
    ensures
      var a := TryConverters(cs, from, to);
      var d := if a.Declined? then a.dest else a.outcome.dest;
      WellTyped(d) && TypeOf(d) == TypeOf(to)
    decreases |cs|
  {
    if |cs| > 0 {
      var r := cs[0](from, to);
      assert WellTyped(r.dest) && TypeOf(r.dest) == TypeOf(to);
      assert Sound(cs[1..]) by {
        forall k, a, b | 0 <= k < |cs[1..]| && WellTyped(b)
          ensures WellTyped(cs[1..][k](a, b).dest) && TypeOf(cs[1..][k](a, b).dest) == TypeOf(b)
        {
          assert cs[1..][k] == cs[k + 1];
        }
      }
      TryConvertersPreserve(cs[1..], from, r.dest);
    }
  }

  /** `convert` keeps the destination's type and well-typedness. */
  lemma {:induction false} ConvertPreserves(from: Value, to: Value, cs: seq<Converter>)
    requires WellTyped(from) && WellTyped(to) && Sound(cs)
    ensures
      var r := Convert(from, to, cs);
      WellTyped(r.dest) && TypeOf(r.dest) == TypeOf(to)
    decreases from, 1, TypeSize(TypeOf(to)), 0
  {
    var ft, tt := TypeOf(from), TypeOf(to);
    if ft == tt {
    } else if IsPtrOf(tt, ft) {
      ConvertPreserves(from, Allocated(to), cs);
    } else if IsPtrOf(ft, tt) {
      if !from.NilV? && to.PtrV? {
        ConvertPreserves(from.pointee, to.pointee, cs);
      }
    } else if ft.StructT? && tt.StructT? {
      FieldsPreserve(from, to, 0, cs);
    } else if ft.StructT? && IsPtrOfStruct(tt) {
      FieldsPreserve(from, Allocated(to), 0, cs);
    } else if tt.StructT? && IsPtrOfStruct(ft) {
      if !from.NilV? {
        FieldsPreserve(from.pointee, to, 0, cs);
      }
    } else if ft.SliceT? && tt.SliceT? {
      ItemsPreserve(from, to, 0, cs);
    } else {
      TryConvertersPreserve(cs, from, to);
    }
  }

  lemma {:induction false} FieldsPreserve(from: Value, to: Value, i: nat, cs: seq<Converter>)
    requires from.StructV? && to.StructV? && i <= |from.fields|
    requires WellTyped(from) && WellTyped(to) && Sound(cs)
    ensures
      var r := ConvertFields(from, to, i, cs);
      WellTyped(r.dest) && TypeOf(r.dest) == TypeOf(to)
    decreases from, 0, 0, |from.fields| - i
  {
    if i < |from.fields| {
      var f := from.fields[i];
      match FieldIndex(to.fields, f.name)
      case None =>
        FieldsPreserve(from, to, i + 1, cs);
      case Some(j) =>
        var o := Convert(f.val, to.fields[j].val, cs);
        ConvertPreserves(f.val, to.fields[j].val, cs);
        UpdateFieldKeepsType(to, j, o.dest);
        var to' := to.(fields := to.fields[j := to.fields[j].(val := o.dest)]);
        if o.err.None? {
          FieldsPreserve(from, to', i + 1, cs);
        }
    }
  }

  lemma {:induction false} ItemsPreserve(from: Value, to: Value, i: nat, cs: seq<Converter>)
    requires from.SliceV? && to.SliceV? && i <= |from.items|
    requires WellTyped(from) && WellTyped(to) && Sound(cs)
    ensures
      var r := AppendItems(from, to, i, cs);
      WellTyped(r.dest) && TypeOf(r.dest) == TypeOf(to)
    decreases from, 0, 0, |from.items| - i
  {
    if i < |from.items| {
      var z := Zero(to.elemType);
      var o := Convert(from.items[i], z, cs);
      ConvertPreserves(from.items[i], z, cs);
      if o.err.None? {
        var to' := to.(items := to.items + [o.dest]);
        assert WellTyped(to') by {
          forall k | 0 <= k < |to'.items| ensures TypeOf(to'.items[k]) == to.elemType && WellTyped(to'.items[k]) {
            if k < |to.items| {
              assert to'.items[k] == to.items[k];
            }
          }
        }
        ItemsPreserve(from, to', i + 1, cs);
      }
    }
  }

  /** A shape error: the one error only `Map` raises. */
  predicate IsShapeError(e: Option<Error>) {
    e.Some? && e.value.CannotMap?
  }

  /** No conversion below `Map` reports a shape error. */
  lemma {:induction false} ConvertNoShapeError(from: Value, to: Value, cs: seq<Converter>)
    ensures !IsShapeError(Convert(from, to, cs).err)
    decreases from, 1, TypeSize(TypeOf(to)), 0
  {
    var ft, tt := TypeOf(from), TypeOf(to);
    if ft == tt {
    } else if IsPtrOf(tt, ft) {
      ConvertNoShapeError(from, Allocated(to), cs);
    } else if IsPtrOf(ft, tt) {
      if !from.NilV? && to.PtrV? {
        ConvertNoShapeError(from.pointee, to.pointee, cs);
      }
    } else if ft.StructT? && tt.StructT? {
      FieldsNoShapeError(from, to, 0, cs);
    } else if ft.StructT? && IsPtrOfStruct(tt) {
      FieldsNoShapeError(from, Allocated(to), 0, cs);
    } else if tt.StructT? && IsPtrOfStruct(ft) {
      if !from.NilV? {
        FieldsNoShapeError(from.pointee, to, 0, cs);
      }
    } else if ft.SliceT? && tt.SliceT? {
      ItemsNoShapeError(from, to, 0, cs);
    } else {
      TryConvertersNoShapeError(cs, from, to);
    }
  }

  lemma TryConvertersNoShapeError(cs: seq<Converter>, from: Value, to: Value)
    ensures var a := TryConverters(cs, from, to); a.Decided? ==> !IsShapeError(a.outcome.err)
  {
  }

  lemma {:induction false} FieldsNoShapeError(from: Value, to: Value, i: nat, cs: seq<Converter>)
    requires from.StructV? && to.StructV? && i <= |from.fields|
    ensures !IsShapeError(ConvertFields(from, to, i, cs).err)
    decreases from, 0, 0, |from.fields| - i
  {
    if i < |from.fields| {
      var f := from.fields[i];
      match FieldIndex(to.fields, f.name)
      case None =>
        FieldsNoShapeError(from, to, i + 1, cs);
      case Some(j) =>
        var o := Convert(f.val, to.fields[j].val, cs);
        ConvertNoShapeError(f.val, to.fields[j].val, cs);
        FieldsNoShapeError(from, to.(fields := to.fields[j := to.fields[j].(val := o.dest)]), i + 1, cs);
    }
  }

  lemma {:induction false} ItemsNoShapeError(from: Value, to: Value, i: nat, cs: seq<Converter>)
    requires from.SliceV? && to.SliceV? && i <= |from.items|
    ensures !IsShapeError(AppendItems(from, to, i, cs).err)
    decreases from, 0, 0, |from.items| - i
  {
    if i < |from.items| {
      var o := Convert(from.items[i], Zero(to.elemType), cs);
      ConvertNoShapeError(from.items[i], Zero(to.elemType), cs);
      ItemsNoShapeError(from, to.(items := to.items + [o.dest]), i + 1, cs);
    }
  }
}

=== FILE: scenarios.dfy ===
/**
  Worked examples: the model evaluated on the data of the repository's tests
  (magic_test.go). Where the tests expect behaviour that magic.go does not
  have, the lemma states what magic.go does.
 */
module Scenarios {
  import opened Values
  import opened Magic
  import Dispatch

  const StringsT := SliceT(StringT)

  const TestType1T := StructT("magic.testType1", [
    FieldType("ID", IntT), FieldType("Name", StringT),
    FieldType("Password", StringT), FieldType("Tags", StringsT)])

  const TimeT := StructT("time.Time", [FieldType("sec", IntT)])

  const TestType2T := StructT("magic.testType2", [
    FieldType("ID", IntT), FieldType("Name", StringT),
    FieldType("Created", TimeT), FieldType("Tags", StringsT)])

  function T1(id: int, name: string, password: string, tags: seq<Value>): (v: Value) {
    StructV("magic.testType1", [
      Field("ID", IntV(id)), Field("Name", StrV(name)),
      Field("Password", StrV(password)), Field("Tags", SliceV(StringT, tags))])
  }

  /** One step of `ConvertFields` that copies a same-typed source field into its namesake. */
  lemma CopyStep(from: Value, to: Value, i: nat, j: nat, cs: seq<Converter>)
    requires from.StructV? && to.StructV? && i < |from.fields| && j < |to.fields|
    requires FieldIndex(to.fields, from.fields[i].name) == Some(j)
    requires TypeOf(from.fields[i].val) == TypeOf(to.fields[j].val)
    ensures ConvertFields(from, to, i, cs) ==
      ConvertFields(from, to.(fields := to.fields[j := Field(to.fields[j].name, from.fields[i].val)]), i + 1, cs)
  {
  }

  /** Updates of a four-element sequence, spelled out. */
  lemma Update4<T>(a: T, b: T, c: T, d: T, x: T)
    ensures [a, b, c, d][0 := x] == [x, b, c, d]
    ensures [a, b, c, d][1 := x] == [a, x, c, d]
    ensures [a, b, c, d][3 := x] == [a, b, c, x]
  {
  }

  const Created := StructV("time.Time", [Field("sec", IntV(0))])

  function T2(id: int, name: string, tags: seq<Value>): (v: Value) {
    StructV("magic.testType2", [
      Field("ID", IntV(id)), Field("Name", StrV(name)),
      Field("Created", Created), Field("Tags", SliceV(StringT, tags))])
  }

  const John := T1(34, "John", "111", [StrV("1")])

  lemma MapStructStepID()
    ensures ConvertFields(John, T2(0, "", []), 0, []) == ConvertFields(John, T2(34, "", []), 1, [])
  {
    var d0 := T2(0, "", []);
    assert FieldIndex(d0.fields, "ID") == Some(0);
    CopyStep(John, d0, 0, 0, []);
    Update4(d0.fields[0], d0.fields[1], d0.fields[2], d0.fields[3], Field("ID", IntV(34)));
    assert d0.(fields := d0.fields[0 := Field("ID", IntV(34))]) == T2(34, "", []);
  }

  lemma MapStructStepName()
    ensures ConvertFields(John, T2(34, "", []), 1, []) == ConvertFields(John, T2(34, "John", []), 2, [])
  {
    var d1 := T2(34, "", []);
    assert FieldIndex(d1.fields, "Name") == Some(1);
    CopyStep(John, d1, 1, 1, []);
    Update4(d1.fields[0], d1.fields[1], d1.fields[2], d1.fields[3], Field("Name", StrV("John")));
    assert d1.(fields := d1.fields[1 := Field("Name", StrV("John"))]) == T2(34, "John", []);
  }

  lemma MapStructStepPassword()
    ensures ConvertFields(John, T2(34, "John", []), 2, []) == ConvertFields(John, T2(34, "John", []), 3, [])
  {
    assert FieldIndex(T2(34, "John", []).fields, "Password") == None;
  }

  lemma MapStructStepTags()
    ensures ConvertFields(John, T2(34, "John", []), 3, []) == Outcome(T2(34, "John", [StrV("1")]), None)
  {
    var d2 := T2(34, "John", []);
    assert d2.fields[3].name == "Tags";
    assert d2.fields[0].name != "Tags" && d2.fields[1].name != "Tags" && d2.fields[2].name != "Tags";
    assert FieldIndex(d2.fields, "Tags") == Some(3);
    CopyStep(John, d2, 3, 3, []);
    Update4(d2.fields[0], d2.fields[1], d2.fields[2], d2.fields[3], Field("Tags", SliceV(StringT, [StrV("1")])));
    assert d2.(fields := d2.fields[3 := Field("Tags", SliceV(StringT, [StrV("1")]))]) == T2(34, "John", [StrV("1")]);
  }

  /** The zero value of testType2: zero id, empty name and tags, the zero time. */
  lemma ZeroTestType2()
    ensures Zero(TestType2T) == T2(0, "", [])
  {
    assert Zero(TimeT) == Created;
    assert Zero(StringsT) == SliceV(StringT, []);
  }

  /** TestMapStruct: ID, Name and Tags are copied, Password is skipped, Created keeps its zero value. */
  lemma MapStructScenario()
    ensures Map(John, PtrV(Zero(TestType2T)), []) ==
      Outcome(PtrV(T2(34, "John", [StrV("1")])), None)
  {
    ZeroTestType2();
    MapStructCopy();
  }

  lemma MapStructCopy()
    ensures ConvertStruct(John, T2(0, "", []), []) == Outcome(T2(34, "John", [StrV("1")]), None)
  {
    MapStructStepID();
    MapStructStepName();
    MapStructStepPassword();
    MapStructStepTags();
  }

  /** TestTypeToPtr: a nil `*int` destination field is allocated and receives the value. */
  lemma TypeToPtrScenario()
    ensures Map(StructV("S1", [Field("ID", IntV(23984))]), PtrV(StructV("S2", [Field("ID", NilV(IntT))])), []) ==
      Outcome(PtrV(StructV("S2", [Field("ID", PtrV(IntV(23984)))])), None)
  {
    var s1 := StructV("S1", [Field("ID", IntV(23984))]);
    var s2 := StructV("S2", [Field("ID", NilV(IntT))]);
    var s2' := StructV("S2", [Field("ID", PtrV(IntV(23984)))]);
    Dispatch.ValueToPointer(IntV(23984), NilV(IntT), []);
    assert FieldIndex(s2.fields, "ID") == Some(0);
    assert s2.(fields := s2.fields[0 := s2.fields[0].(val := PtrV(IntV(23984)))]) == s2';
    assert ConvertFields(s1, s2, 0, []) == ConvertFields(s1, s2', 1, []);
  }

  /**
    TestInvalidType: an int field meets a string field. magic.go reports the
    kinds without the "S1.ID: " prefix the test expects.
   */
  lemma InvalidTypeScenario()
    ensures
      var r := Map(StructV("magic.S1", [Field("ID", IntV(0))]), PtrV(StructV("magic.S2", [Field("ID", StrV(""))])), []);
      && r == Outcome(PtrV(StructV("magic.S2", [Field("ID", StrV(""))])), Some(CannotConvert(Int, String)))
      && Message(r.err.value) == "Cannot convert int to string"
  {
  }

  /** TestMapError: a struct onto a pointer to a slice is refused, the destination untouched. */
  lemma MapErrorScenario()
    ensures
      var s1 := StructV("magic.S1", [Field("ID", IntV(45))]);
      Map(s1, PtrV(SliceV(StringT, [])), []) ==
        Outcome(PtrV(SliceV(StringT, [])), Some(CannotMap(StructT("magic.S1", [FieldType("ID", IntT)]), PtrT(StringsT))))
  {
    var s1 := StructV("magic.S1", [Field("ID", IntV(45))]);
    assert TypeOf(s1) == StructT("magic.S1", [FieldType("ID", IntT)]);
    assert TypeOf(PtrV(SliceV(StringT, []))) == PtrT(StringsT);
  }

  /** TestMapError, the message: it names the pointer type of the destination. */
  lemma MapErrorMessage()
    ensures Message(CannotMap(StructT("magic.S1", [FieldType("ID", IntT)]), PtrT(StringsT))) ==
      "Cannot map magic.S1 to *[]string"
  {
  }

  /**
    TestPtrToType: a non-nil `*int` source field meeting an `int` destination
    field makes magic.go dereference the destination; the test expects a copy.
   */
  lemma PtrToTypeScenario()
    ensures
      var s2 := StructV("S2", [Field("ID", IntV(0))]);
      Map(StructV("S1", [Field("ID", PtrV(IntV(4385)))]), PtrV(s2), []) ==
        Outcome(PtrV(s2), Some(Panic(ElemOfNonPointer)))
  {
  }

  /** TestPtrToType, second half: a nil `*int` source leaves the destination field as it was. */
  lemma NilPtrToTypeScenario()
    ensures
      var s2 := StructV("S2", [Field("ID", IntV(4385))]);
      Map(StructV("S1", [Field("ID", NilV(IntT))]), PtrV(s2), []) == Outcome(PtrV(s2), None)
  {
  }

  /** TestMapStructWithPointersSlice: `[]string` into `[]*string` appends pointers to copies. */
  lemma StringsToPointersScenario()
    ensures
      Map(StructV("S1", [Field("Tags", SliceV(StringT, [StrV("1")]))]),
          PtrV(StructV("S2", [Field("Tags", SliceV(PtrT(StringT), []))])), []) ==
        Outcome(PtrV(StructV("S2", [Field("Tags", SliceV(PtrT(StringT), [PtrV(StrV("1"))]))])), None)
  {
    var from := SliceV(StringT, [StrV("1")]);
    var to := SliceV(PtrT(StringT), []);
    Dispatch.ValueToPointer(StrV("1"), NilV(StringT), []);
    assert Zero(to.elemType) == NilV(StringT);
    assert to.(items := to.items + [PtrV(StrV("1"))]) == SliceV(PtrT(StringT), [PtrV(StrV("1"))]);
    assert AppendItems(from, to, 0, []) == AppendItems(from, SliceV(PtrT(StringT), [PtrV(StrV("1"))]), 1, []);
    assert Convert(from, to, []) == Outcome(SliceV(PtrT(StringT), [PtrV(StrV("1"))]), None);
    var s1 := StructV("S1", [Field("Tags", from)]);
    var s2 := StructV("S2", [Field("Tags", to)]);
    var s2' := StructV("S2", [Field("Tags", SliceV(PtrT(StringT), [PtrV(StrV("1"))]))]);
    assert FieldIndex(s2.fields, "Tags") == Some(0);
    assert s2.(fields := s2.fields[0 := s2.fields[0].(val := SliceV(PtrT(StringT), [PtrV(StrV("1"))]))]) == s2';
    assert ConvertFields(s1, s2, 0, []) == ConvertFields(s1, s2', 1, []);
  }

  /**
    TestConvertPtrToPtr: magic.go has no pointer-to-pointer rule, so `*G1`
    into `*G2` fails, where the test expects the pointee to be copied.
   */
  lemma PtrToPtrScenario()
    ensures
      var g1 := StructV("G1", [Field("ID", IntV(4))]);
      var g2T := StructT("G2", [FieldType("ID", IntT), FieldType("Name", StringT)]);
      var u2 := StructV("U2", [Field("Group", NilV(g2T))]);
      Map(StructV("U1", [Field("Group", PtrV(g1))]), PtrV(u2), []) ==
        Outcome(PtrV(u2), Some(CannotConvert(Ptr, Ptr)))
  {
  }

  /** The `timeToUnix` converter of the tests: a time value into an int destination. */
  function TimeToUnix(from: Value, to: Value): (r: Reply)
    ensures r.err.None?
    ensures r.handled <==> TypeOf(to) == IntT && TypeOf(from) == TimeT
    ensures TypeOf(r.dest) == TypeOf(to)
    ensures !r.handled ==> r.dest == to
  {
    if TypeOf(to) == IntT && TypeOf(from) == TimeT then
      assert TypeOf(from).fieldTypes[0] == FieldType("sec", IntT);
      Reply(true, None, from.fields[0].val)
    else Reply(false, None, to)
  }

  /** A converter that always fails with "E". */
  function FailE(from: Value, to: Value): (r: Reply) {
    Reply(false, Some("E"), to)
  }

  const Time7 := StructV("time.Time", [Field("sec", IntV(7))])
  const T5 := StructV("magic.testType5", [Field("ID", IntV(45)), Field("Created", Time7)])

  function T6(id: int, created: int): (v: Value) {
    StructV("magic.testType6", [Field("ID", IntV(id)), Field("Created", IntV(created))])
  }

  /** The ID field is copied whatever the converters; then the time field meets the int field. */
  lemma ConverterIDStep(cs: seq<Converter>)
    ensures ConvertFields(T5, T6(0, 0), 0, cs) ==
      var o := Convert(Time7, IntV(0), cs);
      var d := T6(45, 0).(fields := T6(45, 0).fields[1 := Field("Created", o.dest)]);
      if o.err.Some? then Outcome(d, o.err) else ConvertFields(T5, d, 2, cs)
  {
    var t6, t6' := T6(0, 0), T6(45, 0);
    assert FieldIndex(t6.fields, "ID") == Some(0);
    CopyStep(T5, t6, 0, 0, cs);
    assert t6.fields[0 := Field("ID", IntV(45))] == t6'.fields;
    assert FieldIndex(t6'.fields, "Created") == Some(1);
  }

  /**
    TestConverter: the time field reaches the converter only after every
    structural rule declined, and the converter's value is stored.
   */
  lemma ConverterScenario()
    ensures Map(T5, PtrV(T6(0, 0)), [TimeToUnix]) == Outcome(PtrV(T6(45, 7)), None)
  {
    assert TypeOf(Time7) == TimeT;
    assert TryConverters([TimeToUnix], Time7, IntV(0)) == Decided(Outcome(IntV(7), None));
    ConverterIDStep([TimeToUnix]);
    assert T6(45, 0).fields[1 := Field("Created", IntV(7))] == T6(45, 7).fields;
  }

  /** A failing converter's error is returned as is, after the fields copied before it. */
  lemma FailingConverterScenario()
    ensures Map(T5, PtrV(T6(0, 0)), [FailE]) == Outcome(PtrV(T6(45, 0)), Some(Custom("E")))
  {
    assert TypeOf(Time7) == TimeT;
    assert TryConverters([FailE], Time7, IntV(0)) == Decided(Outcome(IntV(0), Some(Custom("E"))));
    ConverterIDStep([FailE]);
    assert T6(45, 0).fields[1 := Field("Created", IntV(0))] == T6(45, 0).fields;
  }

  /** Without converters, the time field cannot be converted into the int field. */
  lemma NoConverterScenario()
    ensures Map(T5, PtrV(T6(0, 0)), []) == Outcome(PtrV(T6(45, 0)), Some(CannotConvert(Struct, Int)))
  {
    assert TypeOf(Time7) == TimeT;
    ConverterIDStep([]);
    assert T6(45, 0).fields[1 := Field("Created", IntV(0))] == T6(45, 0).fields;
  }
}

=== FILE: slice_copy.dfy ===
/**
  What `ConvertSlice` does to a destination slice: it appends, in index order,
  one freshly zeroed element per source element, converted from that element.
  The old contents stay in front; the first failing element stops the append
  and leaves the elements appended before it in place.
 */
module SliceCopy {
  import opened Values
  import opened Magic

  /** Every element of `src`, each converted into a fresh copy of `z`. */
  function Converted(src: seq<Value>, z: Value, cs: seq<Converter>): (c: seq<Value>) {
    seq(|src|, k requires 0 <= k < |src| => Convert(src[k], z, cs).dest)
  }

  /** Element k converts without error. */
  predicate ItemOk(src: seq<Value>, z: Value, k: nat, cs: seq<Converter>)
    requires k < |src|
  {
    Convert(src[k], z, cs).err.None?
  }

  ghost predicate AppendedItems(src: seq<Value>, orig: Value, r: Outcome, cs: seq<Converter>)
    requires orig.SliceV?
  {
    var z := Zero(orig.elemType);
    && (r.err.None? <==> forall m :: 0 <= m < |src| ==> ItemOk(src, z, m, cs))
    && (r.err.None? ==> r.dest == orig.(items := orig.items + Converted(src, z, cs)))
    && (r.err.Some? ==> exists k ::
          && 0 <= k < |src|
          && !ItemOk(src, z, k, cs)
          && (forall m :: 0 <= m < k ==> ItemOk(src, z, m, cs))
          && r.err == Convert(src[k], z, cs).err
          && r.dest == orig.(items := orig.items + Converted(src[..k], z, cs)))
  }

  lemma ConvertedExtend(src: seq<Value>, z: Value, i: nat, cs: seq<Converter>)
    requires i < |src|
    ensures Converted(src[..i + 1], z, cs) == Converted(src[..i], z, cs) + [Convert(src[i], z, cs).dest]
  {
  }

  /** Loop invariant of `AppendItems`: the elements of src[..i] have been appended. */
  lemma {:induction false} ItemsInvariant(from: Value, orig: Value, i: nat, cs: seq<Converter>)
    requires from.SliceV? && orig.SliceV? && i <= |from.items|
    requires forall m :: 0 <= m < i ==> ItemOk(from.items, Zero(orig.elemType), m, cs)
    ensures AppendedItems(from.items, orig,
      AppendItems(from, orig.(items := orig.items + Converted(from.items[..i], Zero(orig.elemType), cs)), i, cs), cs)
    decreases |from.items| - i
  {
    var src, z := from.items, Zero(orig.elemType);
    if i == |src| {
      assert src[..i] == src;
    } else {
      var cur := orig.(items := orig.items + Converted(src[..i], z, cs));
      ConvertedExtend(src, z, i, cs);
      assert cur.(items := cur.items + [Convert(src[i], z, cs).dest])
        == orig.(items := orig.items + Converted(src[..i + 1], z, cs));
      if ItemOk(src, z, i, cs) {
        ItemsInvariant(from, orig, i + 1, cs);
      }
    }
  }

  /**
    `convertSlice`: it succeeds exactly when every source element converts into
    a zero destination element, and then the destination is its old contents
    followed by the converted elements in index order. Otherwise the first
    failing element decides the error, and the destination holds its old
    contents followed by the elements converted before that one.
   */
  lemma ConvertSliceSpec(from: Value, to: Value, cs: seq<Converter>)
    requires from.SliceV? && to.SliceV?
    ensures
      var src, z := from.items, Zero(to.elemType);
      var r := ConvertSlice(from, to, cs);
      && (r.err.None? <==> forall m :: 0 <= m < |src| ==> ItemOk(src, z, m, cs))
      && (r.err.None? ==> r.dest == to.(items := to.items + Converted(src, z, cs)))
      && (r.err.Some? ==> exists k ::
            && 0 <= k < |src|
            && !ItemOk(src, z, k, cs)
            && (forall m :: 0 <= m < k ==> ItemOk(src, z, m, cs))
            && r.err == Convert(src[k], z, cs).err
            && r.dest == to.(items := to.items + Converted(src[..k], z, cs)))
  {
    assert from.items[..0] == [];
    assert to.(items := to.items + Converted([], Zero(to.elemType), cs)) == to;
    ItemsInvariant(from, to, 0, cs);
  }

  /**
    Rule 1 wins over rule 7: a slice converted into a slice of the same type
    replaces the destination, while `convertSlice` on the same pair appends
    copies of the elements after the old contents.
   */
  lemma SameTypeSliceReplaced(from: Value, to: Value, cs: seq<Converter>)
    requires from.SliceV? && TypeOf(from) == TypeOf(to) && WellTyped(from)
    ensures Convert(from, to, cs) == Outcome(from, None)
    ensures ConvertSlice(from, to, cs) == Outcome(to.(items := to.items + from.items), None)
  {
    var z := Zero(to.elemType);
    forall m | 0 <= m < |from.items| ensures Convert(from.items[m], z, cs) == Outcome(from.items[m], None) {
      assert TypeOf(from.items[m]) == from.elemType;
    }
    ConvertSliceSpec(from, to, cs);
    assert Converted(from.items, z, cs) == from.items;
  }
}

=== FILE: struct_copy.dfy ===
/**
  What `ConvertStruct` does to a destination struct, stated against an
  independent description: every destination field whose name occurs in the
  source holds the conversion of that source field from the field's original
  value, and every other destination field is untouched. On the first failing
  field the copy stops; fields written before it stay written.
 */
module StructCopy {
  import opened Values
  import opened Magic

  /** The conversion of source field i into the destination field of the same name, if there is one. */
  function FieldStep(sf: seq<Field>, tf: seq<Field>, i: nat, cs: seq<Converter>): (s: Option<Outcome>)
    requires i < |sf|
  {
    match FieldIndex(tf, sf[i].name)
    case None => None
    case Some(j) => Some(Convert(sf[i].val, tf[j].val, cs))
  }

  /** Source field i is skipped (no destination counterpart) or converts without error. */
  predicate FieldOk(sf: seq<Field>, tf: seq<Field>, i: nat, cs: seq<Converter>)
    requires i < |sf|
  {
    var s := FieldStep(sf, tf, i, cs);
    s.None? || s.value.err.None?
  }

  /** Source field k is the first one whose conversion fails. */
  predicate FirstFailure(sf: seq<Field>, tf: seq<Field>, k: nat, cs: seq<Converter>) {
    && k < |sf|
    && !FieldOk(sf, tf, k, cs)
    && forall m :: 0 <= m < k ==> FieldOk(sf, tf, m, cs)
  }

  /** The destination fields once every field of `sf` has been copied into its namesake in `tf`. */
  function Written(sf: seq<Field>, tf: seq<Field>, cs: seq<Converter>): (w: seq<Field>) {
    seq(|tf|, j requires 0 <= j < |tf| =>
      match FieldIndex(sf, tf[j].name)
      case None => tf[j]
      case Some(i) => tf[j].(val := Convert(sf[i].val, tf[j].val, cs).dest))
  }

  /** Two field lists with the same names in the same order look names up alike. */
  lemma FieldIndexByNames(a: seq<Field>, b: seq<Field>, n: string)
    requires |a| == |b| && forall k :: 0 <= k < |a| ==> a[k].name == b[k].name
    ensures FieldIndex(a, n) == FieldIndex(b, n)
  {
    var x, y := FieldIndex(a, n), FieldIndex(b, n);
    if x.Some? && y.Some? {
      assert a[y.value].name == n;
      assert b[x.value].name == n;
    }
  }

  /** Looking a name up in one more source field. */
  lemma FieldIndexExtend(sf: seq<Field>, i: nat, n: string)
    requires i < |sf|
    ensures FieldIndex(sf[..i + 1], n) ==
      if FieldIndex(sf[..i], n).Some? then FieldIndex(sf[..i], n)
      else if sf[i].name == n then Some(i)
      else None
  {
    var a, b := FieldIndex(sf[..i + 1], n), FieldIndex(sf[..i], n);
    assert forall k :: 0 <= k < i ==> sf[..i + 1][k] == sf[..i][k];
    if b.Some? {
      assert sf[..i + 1][b.value].name == n;
    } else if sf[i].name == n {
      assert sf[..i + 1][i].name == n;
    }
  }

  /** In a struct with distinct names, the field named like field k is field k. */
  lemma FieldIndexOfOwnName(fs: seq<Field>, k: nat)
    requires k < |fs| && DistinctFields(fs)
    ensures FieldIndex(fs, fs[k].name) == Some(k)
  {
  }

  /** The characterization of a struct copy of `sf` into `orig` with outcome r. */
  ghost predicate CopiedFields(sf: seq<Field>, orig: Value, r: Outcome, cs: seq<Converter>)
    requires orig.StructV?
  {
    var tf := orig.fields;
    && (r.err.None? <==> forall m :: 0 <= m < |sf| ==> FieldOk(sf, tf, m, cs))
    && (r.err.None? ==> r.dest == orig.(fields := Written(sf, tf, cs)))
    && (r.err.Some? ==> exists k ::
          && FirstFailure(sf, tf, k, cs)
          && r.err == FieldStep(sf, tf, k, cs).value.err
          && r.dest == orig.(fields := Written(sf[..k + 1], tf, cs)))
  }

  /** A name absent from the distinct-named source prefix sf[..i] is the name of sf[i] only. */
  lemma NotInPrefix(sf: seq<Field>, i: nat)
    requires i < |sf| && DistinctFields(sf)
    ensures FieldIndex(sf[..i], sf[i].name).None?
    ensures FieldIndex(sf[..i + 1], sf[i].name) == Some(i)
  {
    forall k | 0 <= k < i ensures sf[..i][k].name != sf[i].name {
      assert sf[..i][k] == sf[k];
    }
    FieldIndexExtend(sf, i, sf[i].name);
  }

  /** Source field i has no namesake in the destination: copying it changes nothing. */
  lemma WrittenSkip(sf: seq<Field>, tf: seq<Field>, i: nat, cs: seq<Converter>)
    requires i < |sf| && FieldIndex(tf, sf[i].name).None?
    ensures Written(sf[..i + 1], tf, cs) == Written(sf[..i], tf, cs)
  {
    forall j | 0 <= j < |tf| ensures Written(sf[..i + 1], tf, cs)[j] == Written(sf[..i], tf, cs)[j] {
      FieldIndexExtend(sf, i, tf[j].name);
    }
  }

  /** Source field i has namesake j: copying it writes field j from its original value. */
  lemma WrittenCopy(sf: seq<Field>, tf: seq<Field>, i: nat, j: nat, cs: seq<Converter>)
    requires i < |sf| && DistinctFields(sf) && DistinctFields(tf)
    requires FieldIndex(tf, sf[i].name) == Some(j)
    ensures j < |tf| && Written(sf[..i], tf, cs)[j] == tf[j]
    ensures
      var w := Written(sf[..i], tf, cs);
      Written(sf[..i + 1], tf, cs) == w[j := w[j].(val := Convert(sf[i].val, tf[j].val, cs).dest)]
  {
    NotInPrefix(sf, i);
    var w := Written(sf[..i], tf, cs);
    var next := w[j := w[j].(val := Convert(sf[i].val, tf[j].val, cs).dest)];
    forall j' | 0 <= j' < |tf| ensures Written(sf[..i + 1], tf, cs)[j'] == next[j'] {
      if j' != j {
        assert tf[j'].name != sf[i].name;
        FieldIndexExtend(sf, i, tf[j'].name);
      }
    }
  }

  /** One step of `ConvertFields` from the state after sf[..i], when source field i has namesake j. */
  lemma CopyStepWritten(from: Value, orig: Value, i: nat, j: nat, cs: seq<Converter>)
    requires from.StructV? && orig.StructV? && i < |from.fields|
    requires DistinctFields(from.fields) && DistinctFields(orig.fields)
    requires FieldIndex(orig.fields, from.fields[i].name) == Some(j)
    ensures j < |orig.fields|
    ensures
      var o := Convert(from.fields[i].val, orig.fields[j].val, cs);
      var next := orig.(fields := Written(from.fields[..i + 1], orig.fields, cs));
      ConvertFields(from, orig.(fields := Written(from.fields[..i], orig.fields, cs)), i, cs) ==
        if o.err.Some? then Outcome(next, o.err) else ConvertFields(from, next, i + 1, cs)
  {
    var sf, tf := from.fields, orig.fields;
    var wi := Written(sf[..i], tf, cs);
    FieldIndexByNames(wi, tf, sf[i].name);
    WrittenCopy(sf, tf, i, j, cs);
    var o := Convert(sf[i].val, tf[j].val, cs);
    assert orig.(fields := wi).(fields := wi[j := wi[j].(val := o.dest)])
      == orig.(fields := Written(sf[..i + 1], tf, cs));
  }

  /** One step of `ConvertFields` from the state after sf[..i], when source field i has no namesake. */
  lemma SkipStepWritten(from: Value, orig: Value, i: nat, cs: seq<Converter>)
    requires from.StructV? && orig.StructV? && i < |from.fields|
    requires FieldIndex(orig.fields, from.fields[i].name).None?
    ensures
      ConvertFields(from, orig.(fields := Written(from.fields[..i], orig.fields, cs)), i, cs) ==
        ConvertFields(from, orig.(fields := Written(from.fields[..i + 1], orig.fields, cs)), i + 1, cs)
  {
    var sf, tf := from.fields, orig.fields;
    FieldIndexByNames(Written(sf[..i], tf, cs), tf, sf[i].name);
    WrittenSkip(sf, tf, i, cs);
  }

  /** Every field copied without error: the characterization holds of the finished copy. */
  lemma CopiedAll(sf: seq<Field>, orig: Value, cs: seq<Converter>)
    requires orig.StructV?
    requires forall m :: 0 <= m < |sf| ==> FieldOk(sf, orig.fields, m, cs)
    ensures CopiedFields(sf, orig, Outcome(orig.(fields := Written(sf, orig.fields, cs)), None), cs)
  {
  }

  /** Field i is the first to fail: the characterization holds of the copy stopped there. */
  lemma CopiedUpTo(sf: seq<Field>, orig: Value, i: nat, e: Option<Error>, cs: seq<Converter>)
    requires orig.StructV? && FirstFailure(sf, orig.fields, i, cs)
    requires e == FieldStep(sf, orig.fields, i, cs).value.err
    ensures CopiedFields(sf, orig, Outcome(orig.(fields := Written(sf[..i + 1], orig.fields, cs)), e), cs)
  {
  }

  /** Loop invariant of `ConvertFields`: the fields of sf[..i] have been copied. */
  lemma {:induction false} FieldsInvariant(from: Value, orig: Value, i: nat, cs: seq<Converter>)
    requires from.StructV? && orig.StructV? && i <= |from.fields|
    requires DistinctFields(from.fields) && DistinctFields(orig.fields)
    requires forall m :: 0 <= m < i ==> FieldOk(from.fields, orig.fields, m, cs)
    ensures CopiedFields(from.fields, orig,
      ConvertFields(from, orig.(fields := Written(from.fields[..i], orig.fields, cs)), i, cs), cs)
    decreases |from.fields| - i, 1
  {
    var sf, tf := from.fields, orig.fields;
    if i == |sf| {
      assert sf[..i] == sf;
      CopiedAll(sf, orig, cs);
    } else {
      match FieldIndex(tf, sf[i].name)
      case None => SkipInvariant(from, orig, i, cs);
      case Some(j) => CopyInvariant(from, orig, i, j, cs);
    }
  }

  /** The invariant step for a source field without a namesake. */
  lemma {:induction false} SkipInvariant(from: Value, orig: Value, i: nat, cs: seq<Converter>)
    requires from.StructV? && orig.StructV? && i < |from.fields|
    requires DistinctFields(from.fields) && DistinctFields(orig.fields)
    requires forall m :: 0 <= m < i ==> FieldOk(from.fields, orig.fields, m, cs)
    requires FieldIndex(orig.fields, from.fields[i].name).None?
    ensures CopiedFields(from.fields, orig,
      ConvertFields(from, orig.(fields := Written(from.fields[..i], orig.fields, cs)), i, cs), cs)
    decreases |from.fields| - i, 0
  {
    SkipStepWritten(from, orig, i, cs);
    assert FieldOk(from.fields, orig.fields, i, cs);
    FieldsInvariant(from, orig, i + 1, cs);
  }

  /** The invariant step for a source field whose namesake is destination field j. */
  lemma {:induction false} CopyInvariant(from: Value, orig: Value, i: nat, j: nat, cs: seq<Converter>)
    requires from.StructV? && orig.StructV? && i < |from.fields|
    requires DistinctFields(from.fields) && DistinctFields(orig.fields)
    requires forall m :: 0 <= m < i ==> FieldOk(from.fields, orig.fields, m, cs)
    requires FieldIndex(orig.fields, from.fields[i].name) == Some(j)
    ensures CopiedFields(from.fields, orig,
      ConvertFields(from, orig.(fields := Written(from.fields[..i], orig.fields, cs)), i, cs), cs)
    decreases |from.fields| - i, 0
  {
    var sf, tf := from.fields, orig.fields;
    CopyStepWritten(from, orig, i, j, cs);
    var o := Convert(sf[i].val, tf[j].val, cs);
    assert FieldStep(sf, tf, i, cs) == Some(o);
    if o.err.None? {
      assert FieldOk(sf, tf, i, cs);
      FieldsInvariant(from, orig, i + 1, cs);
    } else {
      CopiedUpTo(sf, orig, i, o.err, cs);
    }
  }

  /**
    `convertStruct`: it succeeds exactly when every source field with a
    same-named destination field converts without error, and then every such
    destination field holds the conversion of its source field. Otherwise the
    first failing source field decides the error, unchanged, and only the
    fields up to and including it have been written.
   */
  lemma ConvertStructSpec(from: Value, to: Value, cs: seq<Converter>)
    requires from.StructV? && to.StructV?
    requires DistinctFields(from.fields) && DistinctFields(to.fields)
    ensures
      var sf, tf := from.fields, to.fields;
      var r := ConvertStruct(from, to, cs);
      && (r.err.None? <==> forall m :: 0 <= m < |sf| ==> FieldOk(sf, tf, m, cs))
      && (r.err.None? ==> r.dest == to.(fields := Written(sf, tf, cs)))
      && (r.err.Some? ==> exists k ::
            && FirstFailure(sf, tf, k, cs)
            && r.err == FieldStep(sf, tf, k, cs).value.err
            && r.dest == to.(fields := Written(sf[..k + 1], tf, cs)))
  {
    assert from.fields[..0] == [];
    assert Written([], to.fields, cs) == to.fields;
    assert to.(fields := Written(from.fields[..0], to.fields, cs)) == to;
    FieldsInvariant(from, to, 0, cs);
  }

  /** Frame of `ConvertFields`: names are kept, and fields no later source field names are untouched. */
  lemma {:induction false} FieldsFrame(from: Value, to: Value, i: nat, cs: seq<Converter>)
    requires from.StructV? && to.StructV? && i <= |from.fields|
    ensures
      var r := ConvertFields(from, to, i, cs);
      && r.dest.StructV? && r.dest.name == to.name
      && |r.dest.fields| == |to.fields|
      && forall j :: 0 <= j < |to.fields| ==>
           && r.dest.fields[j].name == to.fields[j].name
           && ((forall k :: i <= k < |from.fields| ==> from.fields[k].name != to.fields[j].name) ==>
                 r.dest.fields[j] == to.fields[j])
    decreases |from.fields| - i
  {
    if i < |from.fields| {
      match FieldIndex(to.fields, from.fields[i].name)
      case None =>
        FieldsFrame(from, to, i + 1, cs);
      case Some(j) =>
        var o := Convert(from.fields[i].val, to.fields[j].val, cs);
        var to' := to.(fields := to.fields[j := to.fields[j].(val := o.dest)]);
        if o.err.None? {
          FieldsFrame(from, to', i + 1, cs);
        }
    }
  }

  /**
    `convertStruct` never writes a destination field whose name does not occur
    among the source fields, and keeps the destination's name and field names.
   */
  lemma StructFrame(from: Value, to: Value, cs: seq<Converter>)
    requires from.StructV? && to.StructV?
    ensures
      var r := ConvertStruct(from, to, cs);
      && r.dest.StructV? && r.dest.name == to.name
      && |r.dest.fields| == |to.fields|
      && forall j :: 0 <= j < |to.fields| ==>
           && r.dest.fields[j].name == to.fields[j].name
           && (FieldIndex(from.fields, to.fields[j].name).None? ==> r.dest.fields[j] == to.fields[j])
  {
    FieldsFrame(from, to, 0, cs);
  }

  /** Struct types are equal exactly when names, field names and field types agree. */
  lemma SameStructType(a: Value, b: Value)
    requires a.StructV? && b.StructV? && TypeOf(a) == TypeOf(b)
    ensures a.name == b.name && |a.fields| == |b.fields|
    ensures forall k :: 0 <= k < |a.fields| ==>
      a.fields[k].name == b.fields[k].name && TypeOf(a.fields[k].val) == TypeOf(b.fields[k].val)
  {
    assert |TypeOf(a).fieldTypes| == |a.fields|;
    forall k | 0 <= k < |a.fields|
      ensures a.fields[k].name == b.fields[k].name && TypeOf(a.fields[k].val) == TypeOf(b.fields[k].val)
    {
      assert TypeOf(a).fieldTypes[k] == TypeOf(b).fieldTypes[k];
    }
  }

  /**
    Identity: copying a struct into a struct of the very same type copies
    every field, so the destination ends up equal to the source.
   */
  lemma StructIdentity(s: Value, t: Value, cs: seq<Converter>)
    requires s.StructV? && TypeOf(s) == TypeOf(t) && DistinctFields(s.fields)
    ensures ConvertStruct(s, t, cs) == Outcome(s, None)
  {
    SameStructType(s, t);
    var sf, tf := s.fields, t.fields;
    assert DistinctFields(tf) by {
      forall i, j | 0 <= i < j < |tf| ensures tf[i].name != tf[j].name {
        assert sf[i].name != sf[j].name;
      }
    }
    IdentityFieldsOk(s, t, cs);
    ConvertStructSpec(s, t, cs);
    IdentityWritten(s, t, cs);
  }

  /** Same-typed structs: every source field is copied unchanged into its namesake. */
  lemma IdentityFieldsOk(s: Value, t: Value, cs: seq<Converter>)
    requires s.StructV? && t.StructV? && TypeOf(s) == TypeOf(t) && DistinctFields(s.fields)
    ensures forall m :: 0 <= m < |s.fields| ==> FieldOk(s.fields, t.fields, m, cs)
  {
    SameStructType(s, t);
    var sf, tf := s.fields, t.fields;
    forall m | 0 <= m < |sf| ensures FieldStep(sf, tf, m, cs) == Some(Outcome(sf[m].val, None)) {
      FieldIndexByNames(sf, tf, sf[m].name);
      FieldIndexOfOwnName(sf, m);
    }
  }

  /** Same-typed structs: the fields written by the copy are the source's fields. */
  lemma IdentityWritten(s: Value, t: Value, cs: seq<Converter>)
    requires s.StructV? && t.StructV? && TypeOf(s) == TypeOf(t) && DistinctFields(t.fields)
    ensures Written(s.fields, t.fields, cs) == s.fields
  {
    SameStructType(s, t);
    var sf, tf := s.fields, t.fields;
    forall j | 0 <= j < |tf| ensures Written(sf, tf, cs)[j] == sf[j] {
      FieldIndexByNames(sf, tf, tf[j].name);
      FieldIndexOfOwnName(tf, j);
    }
  }
}

=== FILE: values.dfy ===
/**
  A closed, tagged representation of the run-time values the mapper walks.

  The Go original inspects values through reflection; here every value
  carries enough information to recover its type (`TypeOf`), so that the
  dispatcher can compare types and kinds exactly as reflection does. Struct
  types are nominal: the struct name is part of the type, and two struct
  types are identical when their names and field lists are.
 */
module Values {

  datatype Option<+T> = None | Some(value: T)

  /** The reflection kinds the model distinguishes. */
  datatype Kind = Int | String | Ptr | Struct | Slice

  datatype Type =
    | IntT
    | StringT
    | PtrT(elem: Type)
    | StructT(name: string, fieldTypes: seq<FieldType>)
    | SliceT(elem: Type)

  datatype FieldType = FieldType(name: string, ty: Type)

  /** A value: a nil pointer remembers the type it points to, a slice the type of its elements. */
  datatype Value =
    | IntV(i: int)
    | StrV(s: string)
    | NilV(target: Type)
    | PtrV(pointee: Value)
    | StructV(name: string, fields: seq<Field>)
    | SliceV(elemType: Type, items: seq<Value>)

  datatype Field = Field(name: string, val: Value)

  function KindOf(t: Type): (k: Kind) {
    match t
    case IntT => Int
    case StringT => String
    case PtrT(_) => Ptr
    case StructT(_, _) => Struct
    case SliceT(_) => Slice
  }

  /** The dynamic type of a value, as `reflect.Value.Type()` reports it. */
  function TypeOf(v: Value): (t: Type)
    ensures t.StructT? <==> v.StructV?
    ensures t.SliceT? <==> v.SliceV?
    ensures t.PtrT? <==> v.NilV? || v.PtrV?
    decreases v
  {
    match v
    case IntV(_) => IntT
    case StrV(_) => StringT
    case NilV(t) => PtrT(t)
    case PtrV(p) => PtrT(TypeOf(p))
    case StructV(n, fs) =>
      StructT(n, seq(|fs|, k requires 0 <= k < |fs| => FieldType(fs[k].name, TypeOf(fs[k].val))))
    case SliceV(t, _) => SliceT(t)
  }

  /** Number of type constructors; strictly smaller for the element type of a pointer. */
  function TypeSize(t: Type): (n: nat) {
    match t
    case PtrT(e) => 1 + TypeSize(e)
    case SliceT(e) => 1 + TypeSize(e)
    case _ => 1
  }

  /** Go rejects struct declarations with two fields of the same name. */
  predicate DistinctFieldTypes(fs: seq<FieldType>) {
    forall i, j :: 0 <= i < j < |fs| ==> fs[i].name != fs[j].name
  }

  predicate DistinctFields(fs: seq<Field>) {
    forall i, j :: 0 <= i < j < |fs| ==> fs[i].name != fs[j].name
  }

  /** A type Go could declare: field names are unique in every struct it mentions. */
  predicate WfType(t: Type)
    decreases t
  {
    match t
    case IntT => true
    case StringT => true
    case PtrT(e) => WfType(e)
    case SliceT(e) => WfType(e)
    case StructT(_, fs) =>
      DistinctFieldTypes(fs) && forall k :: 0 <= k < |fs| ==> WfType(fs[k].ty)
  }

  /** A value reflection could produce: slice elements have the slice's element type. */
  predicate WellTyped(v: Value)
    decreases v
  {
    match v
    case IntV(_) => true
    case StrV(_) => true
    case NilV(t) => WfType(t)
    case PtrV(p) => WellTyped(p)
    case StructV(_, fs) =>
      DistinctFields(fs) && forall k :: 0 <= k < |fs| ==> WellTyped(fs[k].val)
    case SliceV(t, items) =>
      WfType(t) && forall k :: 0 <= k < |items| ==> TypeOf(items[k]) == t && WellTyped(items[k])
  }

  /** The zero value of a type, as `reflect.New(t).Elem()` yields it: nil pointers, empty slices. */
  function Zero(t: Type): (z: Value)
    ensures TypeOf(z) == t
    ensures WfType(t) ==> WellTyped(z)
    decreases t
  {
    match t
    case IntT => IntV(0)
    case StringT => StrV("")
    case PtrT(e) => NilV(e)
    case SliceT(e) => SliceV(e, [])
    case StructT(n, fs) =>
      var zs := seq(|fs|, k requires 0 <= k < |fs| => Field(fs[k].name, Zero(fs[k].ty)));
      assert TypeOf(StructV(n, zs)).fieldTypes == fs;
      StructV(n, zs)
  }

  /**
    `FieldByName` on a flat struct: the position of the first field called
    `name`, or None when the struct has no such field.
   */
  function FieldIndex(fs: seq<Field>, name: string): (r: Option<nat>)
    ensures r.Some? ==> r.value < |fs| && fs[r.value].name == name
    ensures r.Some? ==> forall k :: 0 <= k < r.value ==> fs[k].name != name
    ensures r.None? <==> forall k :: 0 <= k < |fs| ==> fs[k].name != name
  {
    if |fs| == 0 then None
    else if fs[0].name == name then Some(0)
    else match FieldIndex(fs[1..], name)
      case None => None
      case Some(k) => Some(k + 1)
  }

  /** Go's `Kind.String()`. */
  function KindName(k: Kind): (s: string) {
    match k
    case Int => "int"
    case String => "string"
    case Ptr => "ptr"
    case Struct => "struct"
    case Slice => "slice"
  }

  /** The `%T` rendering of a type; a struct type prints as its (package-qualified) name. */
  function TypeName(t: Type): (s: string) {
    match t
    case IntT => "int"
    case StringT => "string"
    case PtrT(e) => "*" + TypeName(e)
    case SliceT(e) => "[]" + TypeName(e)
    case StructT(n, _) => n
  }
}
